=== FILE: README.md ===
# telemoji-enhancer in Dafny

A Dafny model of the two pieces of pure logic inside the event handlers of
telemoji-enhancer.

**Custom-emoji entity builder** (`emoji_enhancer.py`). When a channel post
arrives, the Markdown parser yields a text and its formatting entities. The
builder then:

- finds every non-overlapping literal occurrence of every `emoji_map`
  pattern in the text, left to right;
- sorts the occurrences by start index;
- turns each occurrence into a custom-emoji entity whose offset and length
  count UTF-16 code units;
- merges those entities with the Markdown ones, stably sorted by offset.

The text itself is never changed. Text is a sequence of Unicode scalar
values. A character at or above U+10000 takes two UTF-16 code units.

**Sales-bot business rules** (`sale_bot.py`):

- Persian and Arabic digits are converted to ASCII digits.
- The minimum order quantity is tiered by price.
- The `/start` deep link `product_<sku>_m<message id>_c<channel>` is parsed,
  with the fallback for the older `product_<sku>` form.
- A typed quantity is admitted or refused when adding a product or editing
  a cart item. This covers the dynamic minimum and the stock bound.
- `format_cart` computes the cart lines and total.

Modules:

- `Wrappers`: `Option`.
- `TextSearch`: `str.find`, and the non-overlapping left-to-right scan of
  `re.finditer` on an escaped literal.
- `StableSort`: a stable insertion sort by an integer key, standing for
  Python's `list.sort(key=...)`.
- `Utf16`: UTF-16 width, encoding and decoding of scalar values.
- `EmojiEnhancer`: the entity builder.
- `EnhancerScenarios`: a worked example.
- `PersianDigits`, `Catalog`, `Cart`, `QuantityRules`, `DeepLink`: the
  sales-bot rules.

Behaviour of the source that the model keeps, and proves:

- **A SKU starting with `m` or `c` breaks the deep link.** `_m` or `_c` is then
  found at index 7, inside `product_` followed by the SKU's first letter.
  - A SKU starting with `m` gives an empty SKU (`DeepLink.SkuStartingWithM`).
  - A SKU starting with `c` drops the channel post (`DeepLink.SkuStartingWithC`).
  - A composed link is read back into its own fields exactly when they are
    `DeepLink.Unambiguous` (`DeepLink.SplitCompose` and
    `DeepLink.ReadBackNeedsUnambiguous`).
- **A managed product with stock 0 is treated as unmanaged.** Python treats
  `stock_quantity == 0` as false, so any quantity that meets the minimum is
  accepted and any smaller one is refused only for the minimum
  (`QuantityRules.ZeroStockIsUnlimited`).
- **When editing, no other cart row is ever counted.** The fetched record's
  id is the edited id, so every matching row is skipped. Editing therefore
  behaves like adding to an empty cart (`QuantityRules.EditMirrorsAdd`).

## Model

| member | source | states |
|---|---|---|
| TextSearch.FindFrom | sale_bot.py:143-144 | the result is the first index at or after `from` where the pattern occurs, or -1 exactly when there is no such index |
| TextSearch.FindSpec | sale_bot.py:143-144 | `find` is -1 iff the pattern does not occur; otherwise it is an occurrence with none before it |
| TextSearch.FindIsFirst | sale_bot.py:143-144 | an occurrence with no earlier occurrence is the index `find` returns |
| TextSearch.FindAll | emoji_enhancer.py:117 | every reported start is an occurrence of the pattern at or after `from`; each match ends at or before the next one starts |
| TextSearch.FindAllComplete | emoji_enhancer.py:117 | the scan misses nothing: every occurrence is a match or lies inside one |
| TextSearch.FindAllDisjoint | emoji_enhancer.py:117 | any two matches, not only neighbours, are disjoint and ascending |
| TextSearch.FindAllUnique | emoji_enhancer.py:117 | any ascending, non-overlapping list of occurrences covering all occurrences equals the scan's result |
| TextSearch.ScanEmptyIff | emoji_enhancer.py:117 | a covering scan is empty exactly when `find` fails |
| StableSort.Insert | emoji_enhancer.py:120 | insertion adds exactly one element (multiset) and keeps a sorted list sorted |
| StableSort.Sort | emoji_enhancer.py:120 | the result is a permutation of the input, sorted by key |
| StableSort.SortStable | emoji_enhancer.py:120 | for every key, the elements with that key keep their input order |
| StableSort.SortUnique | emoji_enhancer.py:136 | any sorted arrangement that keeps each key's input order is `Sort`'s result |
| StableSort.WithKeyAppend | emoji_enhancer.py:135 | selecting one key's elements distributes over concatenation |
| StableSort.SortedGroupsDetermine | emoji_enhancer.py:136 | two sorted lists with the same per-key groups are equal |
| Utf16.WidthAppend | emoji_enhancer.py:125 | the UTF-16 length of a concatenation is the sum of the lengths |
| Utf16.WidthCountsSupplementary | emoji_enhancer.py:125 | UTF-16 length = number of characters + number of supplementary characters |
| Utf16.WidthBounds | emoji_enhancer.py:125-126 | UTF-16 length is between the character count and twice it |
| Utf16.WidthEqualsLengthIffBmp | emoji_enhancer.py:125 | UTF-16 length equals the character count iff no character is supplementary |
| Utf16.PrefixWidthMonotone | emoji_enhancer.py:125 | a longer prefix has a UTF-16 length at least as large |
| Utf16.EncodeAppend | emoji_enhancer.py:125 | encoding distributes over concatenation |
| Utf16.EncodeLength | emoji_enhancer.py:125-126 | the encoding has exactly as many code units as the UTF-16 length |
| Utf16.HalfByteLengthIsWidth | emoji_enhancer.py:125-126 | half the `utf-16-le` byte count is the UTF-16 length |
| Utf16.EncodeUnitsFit | emoji_enhancer.py:125 | every code unit of a scalar text's encoding is a 16-bit value |
| Utf16.DecodeEncode | emoji_enhancer.py:125-126 | decoding the UTF-16 encoding of scalar text gives the text back |
| EmojiEnhancer.RuleMatches | emoji_enhancer.py:117-118 | one match per scan hit, starting at that hit; each match is literal (`text[start:end] == emoji`) and carries its rule's id; a rule's matches do not overlap |
| EmojiEnhancer.FindMatches | emoji_enhancer.py:115-118 | every match is literal and comes from one of the rules |
| EmojiEnhancer.FindMatchesComplete | emoji_enhancer.py:116-118 | every occurrence of every pattern is a match of its rule or lies inside one |
| EmojiEnhancer.RuleMatchesDisjoint | emoji_enhancer.py:117 | two matches of one rule are pairwise non-overlapping and ascending |
| EmojiEnhancer.SortedMatches | emoji_enhancer.py:120 | the matches are permuted into start order and stay literal |
| EmojiEnhancer.SortedMatchesStable | emoji_enhancer.py:120 | matches starting at the same index keep `emoji_map` order |
| EmojiEnhancer.ToEntity | emoji_enhancer.py:124-128 | offset is the UTF-16 length of the prefix, at least the start index; length is the emoji's UTF-16 length; the entity lies inside the text |
| EmojiEnhancer.OffsetCountsSurrogates | emoji_enhancer.py:124-125 | each supplementary character before the match adds exactly one to the offset |
| EmojiEnhancer.OffsetOfBmpPrefix | emoji_enhancer.py:124-125 | with only BMP characters before the match, the offset is the start index |
| EmojiEnhancer.EntityCoversEmoji | emoji_enhancer.py:124-128 | the entity's span of the UTF-16 text is exactly the emoji's encoding |
| EmojiEnhancer.EmojiEntities | emoji_enhancer.py:122-129 | exactly one entity per match, in match order, with that match's offset, length and id |
| EmojiEnhancer.NewEntitiesAscending | emoji_enhancer.py:120-129 | the new entities are sorted by offset |
| EmojiEnhancer.Enhance | emoji_enhancer.py:131-136 | no edit iff nothing matched; otherwise the text is unchanged and the entities are a permutation of Markdown plus emoji entities, sorted by offset |
| EmojiEnhancer.EnhanceTieBreak | emoji_enhancer.py:135-136 | on each offset, the Markdown entities come first, then the emoji entities, each group in its own order |
| EmojiEnhancer.EnhanceIsTheStableMerge | emoji_enhancer.py:135-136 | any offset-sorted list with that tie order equals the handler's list |
| EmojiEnhancer.EnhanceKeepsEveryEntity | emoji_enhancer.py:135 | every Markdown and emoji entity is in the final list |
| EnhancerScenarios.TwoEmojiHiMatches | emoji_enhancer.py:117-118 | in "😀😀 hi", "hi" is found once, at native index 3 |
| EnhancerScenarios.TwoEmojiSpaceWidth | emoji_enhancer.py:125 | "😀😀 " is five UTF-16 units long |
| EnhancerScenarios.TwoEmojiHiScenario | emoji_enhancer.py:115-136 | the edit for "😀😀 hi" has one entity, at offset 5 with length 2 |
| PersianDigits.AsciiDigit | sale_bot.py:32 | the character for digit value d is an ASCII digit of value d |
| PersianDigits.ToAsciiDigits | sale_bot.py:28-34 | keeps length and every digit's value; leaves no Persian or Arabic digit; keeps every other character |
| PersianDigits.ToAsciiDigitsIdempotent | sale_bot.py:28-34 | converting twice is converting once |
| PersianDigits.ToAsciiDigitsByIndex | sale_bot.py:30-33 | the d-th Persian or Arabic digit becomes the ASCII digit d |
| PersianDigits.ToAsciiDigitsFixesAscii | sale_bot.py:28-34 | text without Persian or Arabic digits is unchanged |
| Catalog.MinQuantity | sale_bot.py:55-60 | the tier is one of 1, 6, 12; it is 12 iff price ≤ 30000 and 1 iff price > 100000 |
| Catalog.MinQuantityAntitone | sale_bot.py:246-251 | a dearer product never has a larger minimum |
| Catalog.StockManagedCases | sale_bot.py:348 | management off, a null stock or a stock of 0 all mean "not managed"; management on with any other stock means "managed" |
| Catalog.ProductFromCatalog | sale_bot.py:47-71 | the record's id is the requested SKU, its minimum is the price tier, and in-stock means status `instock` |
| Cart.CartValueAppend | sale_bot.py:82-88 | the value of two carts together is the sum of their values |
| Cart.CartValueNonNegative | sale_bot.py:85-88 | non-negative prices and quantities give a non-negative total |
| Cart.UnpricedItemsAreFree | sale_bot.py:85 | items with no price add nothing to the total |
| Cart.FormatCart | sale_bot.py:77-91 | the empty message iff the cart is empty; otherwise one line per item, numbered from 1, with its display name, quantity, unit price (a missing price as 0) and subtotal, and total = Σ price × quantity |
| QuantityRules.CartQuantityOf | sale_bot.py:338-345 | the quantity of the first row for the product, or 0 when there is none |
| QuantityRules.OtherCartQuantity | sale_bot.py:257-264 | when the edited id is the product's id, no row counts |
| QuantityRules.AdmitNew | sale_bot.py:347-391 | managed stock: accepted iff cart + q ≤ stock and q meets the minimum, lowered to 1 when less than the minimum remains; below that effective minimum the reply is "at least" it, otherwise too much is refused with stock − cart as the maximum; unmanaged: accepted iff q ≥ minimum, else "at least the minimum" |
| QuantityRules.AdmitEdit | sale_bot.py:244-300 | managed stock: the minimum is the recomputed price tier, lowered to 1 when the stock left after other rows is below it; below it the reply is "at least" it, above the remaining stock the reply names that stock as the maximum; for the fetched record this means accepted iff q ≤ stock and q meets the minimum; unmanaged: accepted iff q ≥ the tier, else "at least the tier" |
| QuantityRules.DynamicMinimumNeverStrands | sale_bot.py:352-357 | when some stock is left, asking for all of it is accepted |
| QuantityRules.AcceptedAddFitsStock | sale_bot.py:367-382 | an accepted addition never takes the cart beyond the managed stock, and adds at least one unit |
| QuantityRules.ZeroStockIsUnlimited | sale_bot.py:348 | a managed product with stock 0 accepts every quantity meeting its minimum and refuses every smaller one with `BelowMinimum` of that minimum, never for stock |
| QuantityRules.EditMirrorsAdd | sale_bot.py:257-266 | editing behaves as adding to an empty cart with the price-tier minimum |
| QuantityRules.EditOfFetchedProduct | sale_bot.py:63-71 | for a record built by the catalogue lookup, editing is adding to an empty cart |
| DeepLink.Slice | sale_bot.py:148-154 | Python slicing: the sub-sequence when in range, empty when the bounds cross |
| DeepLink.FirstField | sale_bot.py:157 | `split('_')[0]` holds no `_`, is a prefix, and is followed by `_` when shorter |
| DeepLink.SplitMarkers | sale_bot.py:143-154 | the marker branch is taken iff `0 < find('_m') < find('_c')` |
| DeepLink.ParseProductLink | sale_bot.py:136-162 | always opens a product; in the marker branch it opens the SKU read and remembers the post exactly when message id and channel are both non-empty; the fallback remembers nothing and its SKU holds no `_` |
| DeepLink.RemoveAll | sale_bot.py:157 | `replace(target, '')` never lengthens the text and leaves text without an occurrence unchanged |
| DeepLink.RemoveAllAfterPrefix | sale_bot.py:157 | a leading occurrence of the target is removed, and the rest is processed the same way |
| DeepLink.MarkerFieldsUnambiguous | sale_bot.py:143-154 | every field triple the marker branch reads from a `product_` link whose SKU does not start with `m` is unambiguous, so the round trip of `SplitCompose` covers all such links |
| DeepLink.OldFormRoundTrip | sale_bot.py:155-157 | the older link `product_<sku>` with a `_`-free SKU opens exactly that SKU and remembers no post |
| DeepLink.ParseStart | sale_bot.py:129-157 | `myorders` shows orders; a `product_` argument opens a product; no argument is the plain welcome |
| DeepLink.SplitCompose | sale_bot.py:143-154 | unambiguous fields put into a link are read back unchanged |
| DeepLink.ParseStartCompose | sale_bot.py:136-162 | for a link composed from unambiguous fields, `/start` opens that SKU, and remembers the post exactly when the message id and the channel are both non-empty |
| DeepLink.ComposeSplit | sale_bot.py:143-154 | whenever the marker branch is taken (SKU not starting with `m`), the fields glued back give the argument |
| DeepLink.FindMessageMarker | sale_bot.py:143 | in a link composed from unambiguous fields, `_m` is first found right after the SKU |
| DeepLink.FindChannelMarker | sale_bot.py:144 | in a link composed from unambiguous fields, `_c` is first found right after the message id |
| DeepLink.ReadBackNeedsUnambiguous | sale_bot.py:143-154 | a composed link whose marker split gives back its own fields was composed from unambiguous fields: with `SplitCompose`, the round trip holds exactly for unambiguous fields |
| DeepLink.SkuStartingWithM | sale_bot.py:143-148 | for `product_m…`, `_m` is found at 7 and the marker branch reads an empty SKU |
| DeepLink.SkuStartingWithC | sale_bot.py:143-157 | for `product_c…`, the marker branch is skipped and the post is forgotten |

## Left out

- The Telegram client, `client._parse_message_text` and `event.edit`: the parser's output is an input here, and the edit is the returned `Edit` value.
- `int(doc_id)`: document ids are integers already.
- Lone surrogates in the text, which make the `utf-16-le` encoding raise: the text is scalar values.
- The mutable `emoji_map` dictionary: it is a sequence of rules in iteration order.
- Empty patterns, which would match at every index: excluded by `ValidRules`, as `RemoveAll` excludes an empty target.
- The WooCommerce HTTP request, its JSON and error handling, and `float(regular_price)`: the lookup's result is the input of `Catalog.ProductFromCatalog`; prices are exact reals (no NaN, no rounding).
- All database helpers (`get_user_cart`, `add_to_cart`, `update_cart_quantity`, …): the cart is a sequence of rows passed in.
- `InputValidator` (quantity and SKU validation): the validated quantity is an integer input; the parsed SKU is returned unvalidated.
- The `str()` normalisation of product ids when comparing: ids are strings already.
- Message texts, Markdown, `:,.0f` number formatting and keyboards: `Cart.FormatCart` returns the numbers the text is built from.
- The stock warning and the out-of-stock reply after `/start`, and storing the source post in the session.
- The 2% discount, menus, JSON config, logging and the `context.user_data` flag dispatch in the message handler.

=== FILE: cart.dfy ===
/**
 The cart summary shown after every change: one numbered line per item
 and the grand total. The Markdown text and thousands separators are not
 modelled; the view keeps the numbers the text is made from.
 */
module Cart {
  import opened Wrappers

  /** A cart row as the database returns it; a missing price is None. */
  datatype CartItem = CartItem(productId: string, productName: Option<string>, price: Option<real>, quantity: int)

  /** One printed line: `number- name` and `quantity x price = subtotal`. */
  datatype CartLine = CartLine(number: nat, name: string, quantity: int, price: real, subtotal: real)

  /** What `format_cart` prints: the fixed "cart is empty" message, or the lines and the total. */
  datatype CartView = EmptyCart | Listing(lines: seq<CartLine>, total: real)

  /** `item.get('price') or 0`: a missing price counts as zero. */
  function UnitPrice(item: CartItem): real {
    item.price.GetOr(0.0)
  }

  /** `item.get('product_name') or f"محصول {product_id}"`. */
  function DisplayName(item: CartItem): string {
    if item.productName.Some? && item.productName.value != "" then item.productName.value
    else "\U{0645}\U{062D}\U{0635}\U{0648}\U{0644} " + item.productId
  }

  /** The line for item number `number`. */
  function LineFor(number: nat, item: CartItem): CartLine {
    CartLine(number, DisplayName(item), item.quantity, UnitPrice(item), UnitPrice(item) * item.quantity as real)
  }

  /** Reference value of a cart: the sum of price times quantity over its items. */
  function CartValue(items: seq<CartItem>): real {
    if items == [] then 0.0 else CartValue(items[..|items| - 1]) + UnitPrice(items[|items| - 1]) * items[|items| - 1].quantity as real
  }

  /** The value of two carts together is the sum of their values. */
  lemma {:induction false} CartValueAppend(a: seq<CartItem>, b: seq<CartItem>)
    ensures CartValue(a + b) == CartValue(a) + CartValue(b)
    decreases |b|
  {
    if b == [] {
      assert a + b == a;
    } else {
      var b' := b[..|b| - 1];
      assert (a + b)[..|a + b| - 1] == a + b';
      CartValueAppend(a, b');
    }
  }

  /** With non-negative prices and quantities the total is non-negative. */
  lemma {:induction false} CartValueNonNegative(items: seq<CartItem>)
    requires forall i :: 0 <= i < |items| ==> 0.0 <= UnitPrice(items[i]) && 0 <= items[i].quantity
    ensures 0.0 <= CartValue(items)
  {
    if items != [] {
      CartValueNonNegative(items[..|items| - 1]);
    }
  }

  /** Items without a price add nothing to the total. */
  lemma {:induction false} UnpricedItemsAreFree(items: seq<CartItem>)
    requires forall i :: 0 <= i < |items| ==> items[i].price.None?
    ensures CartValue(items) == 0.0
  {
    if items != [] {
      UnpricedItemsAreFree(items[..|items| - 1]);
    }
  }

  /**
   `format_cart`: nothing but the "empty" message for an empty cart;
   otherwise lines numbered from 1 in cart order, and the running total.
   */
  method FormatCart(items: seq<CartItem>) returns (view: CartView)
    ensures items == [] <==> view == EmptyCart
    ensures view.Listing? ==> |view.lines| == |items|
    ensures view.Listing? ==> forall i :: 0 <= i < |items| ==>
      && view.lines[i].number == i + 1
      && view.lines[i].name == DisplayName(items[i])
      && view.lines[i].quantity == items[i].quantity
      && view.lines[i].price == UnitPrice(items[i])
      && view.lines[i].subtotal == UnitPrice(items[i]) * items[i].quantity as real
    ensures view.Listing? ==> view.total == CartValue(items)
  {
    if items == [] {
      return EmptyCart;
    }
    var lines: seq<CartLine> := [];
    var total := 0.0;
    var idx := 0;
    while idx < |items|
      invariant 0 <= idx <= |items|
      invariant |lines| == idx
      invariant forall i :: 0 <= i < idx ==> lines[i] == LineFor(i + 1, items[i])
      invariant total == CartValue(items[..idx])
    {
      var line := LineFor(idx + 1, items[idx]);
      assert items[..idx + 1][..idx] == items[..idx];
      total := total + line.subtotal;
      lines := lines + [line];
      idx := idx + 1;
    }
    assert items[..idx] == items;
    return Listing(lines, total);
  }
}

=== FILE: catalog.dfy ===
/**
 The product record the bot builds from a catalogue lookup, and the
 minimum order quantity derived from the price.
 */
module Catalog {
  import opened Wrappers

  /**
   Minimum order by price tier: 12 up to 30,000, 6 above that up to
   100,000, 1 above 100,000.
   */
  function MinQuantity(price: real): (r: nat)
    ensures r == 1 || r == 6 || r == 12
    ensures r == 12 <==> price <= 30000.0
    ensures r == 1 <==> 100000.0 < price
  {
    if price <= 30000.0 then 12
    else if 30000.0 < price <= 100000.0 then 6
    else 1
  }

  /** A dearer product never has a larger minimum. */
  lemma MinQuantityAntitone(cheap: real, dear: real)
    requires cheap <= dear
    ensures MinQuantity(dear) <= MinQuantity(cheap)
  {
  }

  /**
   The dictionary the catalogue lookup returns. `stockQuantity` is the
   catalogue's `stock_quantity` (None for JSON null).
   */
  datatype Product = Product(
    productId: string,
    name: string,
    price: real,
    minQuantity: nat,
    inStock: bool,
    stockQuantity: Option<int>,
    manageStock: bool)

  /**
   The lookup's record for the first product with SKU `sku`; a missing
   name defaults to "Product <sku>". The id recorded is the SKU asked for.
   */
  function ProductFromCatalog(sku: string, name: Option<string>, price: real, stockStatus: string,
                              stockQuantity: Option<int>, manageStock: bool): (p: Product)
    ensures p.productId == sku && p.price == price
    ensures p.minQuantity == MinQuantity(price)
    ensures p.inStock <==> stockStatus == "instock"
  {
    Product(sku, name.GetOr("Product " + sku), price, MinQuantity(price),
            stockStatus == "instock", stockQuantity, manageStock)
  }

  /**
   `product_info.get('manage_stock') and product_info.get('stock_quantity')`:
   stock limits apply only when management is on and the stock is neither
   null nor zero, so a managed product with stock 0 counts as unmanaged.
   */
  predicate StockManaged(p: Product) {
    p.manageStock && p.stockQuantity.Some? && p.stockQuantity.value != 0
  }

  /**
   The truthiness cases of the stock test: management off, a null stock
   and a stock of 0 all mean "not managed"; any other stock with
   management on means "managed", negative stock included.
   */
  lemma StockManagedCases(p: Product)
    ensures !p.manageStock ==> !StockManaged(p)
    ensures p.stockQuantity == None ==> !StockManaged(p)
    ensures p.stockQuantity == Some(0) ==> !StockManaged(p)
    ensures p.manageStock && p.stockQuantity.Some? && p.stockQuantity.value != 0 ==> StockManaged(p)
  {
  }
}

=== FILE: deep_link.dfy ===
/**
 The `/start` argument of the sales bot. `myorders` opens the order list;
 `product_<sku>_m<message id>_c<channel>` opens a product and remembers the
 channel post to return to; an older `product_<sku>` form is still read.
 */
module DeepLink {
  import opened Wrappers
  import opened TextSearch

  /** The channel post the customer came from. */
  datatype PostRef = PostRef(messageId: string, channel: string)

  /** What `/start` does with its arguments. */
  datatype StartAction = ShowOrders | OpenProduct(sku: string, source: Option<PostRef>) | Welcome

  /** The three fields cut out of a `product_..._m..._c...` argument. */
  datatype LinkFields = LinkFields(sku: string, messageId: string, channel: string)

  const ProductPrefix: string := "product_"

  predicate StartsWith(s: string, prefix: string) {
    |prefix| <= |s| && s[..|prefix|] == prefix
  }

  /** Python's `s[i:j]` for non-negative bounds: clamped to the string, empty when `j <= i`. */
  function Slice(s: string, i: nat, j: nat): (r: string)
    ensures i <= j <= |s| ==> r == s[i..j]
    ensures j <= i || |s| <= i ==> r == ""
  {
    if j <= i || |s| <= i then "" else s[i..if j < |s| then j else |s|]
  }

  /** Python's `s.replace(target, '')`: deletes the non-overlapping occurrences, left to right. */
  function RemoveAll(s: string, target: string): (r: string)
    requires |target| > 0
    ensures |r| <= |s|
    ensures !Contains(s, target) ==> r == s
    decreases |s|
  {
    if |s| < |target| then s
    else if s[..|target|] == target then
      assert OccursAt(s, target, 0);
      RemoveAll(s[|target|..], target)
    else
      ContainsTail(s, target);
      [s[0]] + RemoveAll(s[1..], target)
  }

  /** An occurrence in the tail is an occurrence in the whole. */
  lemma ContainsTail(s: string, p: string)
    requires s != []
    ensures Contains(s[1..], p) ==> Contains(s, p)
  {
    if Contains(s[1..], p) {
      var i :| 0 <= i <= |s[1..]| && OccursAt(s[1..], p, i);
      assert s[i + 1..i + 1 + |p|] == s[1..][i..i + |p|];
      assert OccursAt(s, p, i + 1);
    }
  }

  /** Removing starts by dropping a leading occurrence. */
  lemma RemoveAllAfterPrefix(x: string, target: string)
    requires |target| > 0
    ensures RemoveAll(target + x, target) == RemoveAll(x, target)
  {
    assert (target + x)[..|target|] == target;
    assert (target + x)[|target|..] == x;
  }

  /** Python's `s.split(sep)[0]`: everything before the first `sep`. */
  function FirstField(s: string, sep: char): (r: string)
    ensures sep !in r
    ensures StartsWith(s, r)
    ensures |r| < |s| ==> s[|r|] == sep
  {
    if s == [] || s[0] == sep then ""
    else [s[0]] + FirstField(s[1..], sep)
  }

  /**
   The marker branch: with `m = arg.find('_m')` and `c = arg.find('_c')`,
   when `m > 0` and `c > m` the fields are `arg[8:m]`, `arg[m+2:c]` and
   `arg[c+2:]`; otherwise there are none.
   */
  function SplitMarkers(arg: string): (f: Option<LinkFields>)
    ensures f.Some? <==> 0 < Find(arg, "_m") < Find(arg, "_c")
  {
    var m := Find(arg, "_m");
    var c := Find(arg, "_c");
    if m > 0 && c > m then
      Some(LinkFields(Slice(arg, 8, m), Slice(arg, m + 2, c), Slice(arg, c + 2, |arg|)))
    else None
  }

  /** The product branch of `/start`, including the fallback for links of the older form. */
  function ParseProductLink(arg: string): (a: StartAction)
    ensures a.OpenProduct?
    ensures a.source.Some? ==> a.source.value.messageId != "" && a.source.value.channel != ""
    ensures SplitMarkers(arg).Some? ==>
      var f := SplitMarkers(arg).value;
      && a.sku == f.sku
      && (a.source.Some? <==> f.messageId != "" && f.channel != "")
      && (a.source.Some? ==> a.source.value == PostRef(f.messageId, f.channel))
    ensures SplitMarkers(arg).None? ==> a.source.None? && '_' !in a.sku
  {
    match SplitMarkers(arg)
    case Some(f) =>
      var source := if f.messageId != "" && f.channel != "" then Some(PostRef(f.messageId, f.channel)) else None;
      OpenProduct(f.sku, source)
    case None =>
      OpenProduct(FirstField(RemoveAll(arg, ProductPrefix), '_'), None)
  }

  /** `/start` with its argument list. */
  function ParseStart(args: seq<string>): (a: StartAction)
    ensures args == [] ==> a == Welcome
    ensures a == ShowOrders <==> args != [] && args[0] == "myorders"
    ensures a.OpenProduct? <==> args != [] && StartsWith(args[0], ProductPrefix)
  {
    if args == [] then Welcome
    else if args[0] == "myorders" then
      assert args[0][0] != ProductPrefix[0];
      ShowOrders
    else if StartsWith(args[0], ProductPrefix) then ParseProductLink(args[0])
    else Welcome
  }

  /** The argument a channel post puts in its order button. */
  function Compose(f: LinkFields): string {
    ProductPrefix + f.sku + "_m" + f.messageId + "_c" + f.channel
  }

  /**
   The fields read back unchanged only when the markers cannot be found
   earlier than intended: the SKU holds no `_m` or `_c` and does not start
   with `m` or `c` (which would pair with the `_` of `product_`), and the
   message id holds no `_c`.
   */
  predicate Unambiguous(f: LinkFields) {
    && !Contains(f.sku, "_m") && !Contains(f.sku, "_c")
    && !Contains(f.messageId, "_c")
    && (f.sku != "" ==> f.sku[0] != 'm' && f.sku[0] != 'c')
  }

  /** Two characters `a`, `b` at `i`, `i + 1`. */
  lemma PairAt(s: string, a: char, b: char, i: int)
    ensures OccursAt(s, [a, b], i) <==> 0 <= i && i + 1 < |s| && s[i] == a && s[i + 1] == b
  {
    if 0 <= i && i + 1 < |s| {
      assert s[i..i + 2] == [s[i], s[i + 1]];
    }
  }

  /** A pair inside a part of a string is a pair of that part. */
  lemma PairInPart(s: string, lo: int, hi: int, part: string, a: char, b: char, i: int)
    requires 0 <= lo <= hi <= |s| && s[lo..hi] == part
    requires lo <= i && i + 1 < hi && s[i] == a && s[i + 1] == b
    ensures Contains(part, [a, b])
  {
    PairAt(part, a, b, i - lo);
    assert part[i - lo] == s[i] && part[i - lo + 1] == s[i + 1];
  }

  /** Where `_m` is first found in a composed link: right after the SKU. */
  lemma FindMessageMarker(f: LinkFields)
    requires Unambiguous(f)
    ensures Find(Compose(f), "_m") == 8 + |f.sku|
  {
    var s, k := Compose(f), 8 + |f.sku|;
    assert s[..8] == ProductPrefix;
    assert s[8..k] == f.sku;
    assert s[k] == '_' && s[k + 1] == 'm';
    PairAt(s, '_', 'm', k);
    forall i | 0 <= i < k ensures !OccursAt(s, "_m", i) {
      PairAt(s, '_', 'm', i);
      if i < 7 {
        assert s[i] == ProductPrefix[i];
      } else if i == 7 {
        assert s[8] == (if f.sku == "" then '_' else f.sku[0]);
      } else if i + 1 < k {
        if s[i] == '_' && s[i + 1] == 'm' {
          PairInPart(s, 8, k, f.sku, '_', 'm', i);
        }
      }
    }
    FindIsFirst(s, "_m", k);
  }

  /** Where `_c` is first found in a composed link: right after the message id. */
  lemma FindChannelMarker(f: LinkFields)
    requires Unambiguous(f)
    ensures Find(Compose(f), "_c") == 10 + |f.sku| + |f.messageId|
  {
    var s, k := Compose(f), 10 + |f.sku| + |f.messageId|;
    var m := 8 + |f.sku|;
    assert s[..8] == ProductPrefix;
    assert s[8..m] == f.sku;
    assert s[m] == '_' && s[m + 1] == 'm';
    assert s[m + 2..k] == f.messageId;
    assert s[k] == '_' && s[k + 1] == 'c';
    PairAt(s, '_', 'c', k);
    forall i | 0 <= i < k ensures !OccursAt(s, "_c", i) {
      PairAt(s, '_', 'c', i);
      if i < 7 {
        assert s[i] == ProductPrefix[i];
      } else if i == 7 {
        assert s[8] == (if f.sku == "" then '_' else f.sku[0]);
      } else if i + 1 < m {
        if s[i] == '_' && s[i + 1] == 'c' {
          PairInPart(s, 8, m, f.sku, '_', 'c', i);
        }
      } else if m + 2 <= i && i + 1 < k {
        if s[i] == '_' && s[i + 1] == 'c' {
          PairInPart(s, m + 2, k, f.messageId, '_', 'c', i);
        }
      }
    }
    FindIsFirst(s, "_c", k);
  }

  /** A link composed from unambiguous fields is read back into the same fields. */
  lemma SplitCompose(f: LinkFields)
    requires Unambiguous(f)
    ensures SplitMarkers(Compose(f)) == Some(f)
  {
    var s := Compose(f);
    var m, c := 8 + |f.sku|, 10 + |f.sku| + |f.messageId|;
    FindMessageMarker(f);
    FindChannelMarker(f);
    assert s[8..m] == f.sku;
    assert s[m + 2..c] == f.messageId;
    assert s[c + 2..] == f.channel;
    assert Slice(s, 8, m) == f.sku;
    assert Slice(s, m + 2, c) == f.messageId;
    assert Slice(s, c + 2, |s|) == f.channel;
  }

  /**
   `/start` on a composed link opens the SKU and remembers the post when
   both the message id and the channel are non-empty.
   */
  lemma ParseStartCompose(f: LinkFields)
    requires Unambiguous(f)
    ensures ParseStart([Compose(f)]) == OpenProduct(f.sku,
      if f.messageId != "" && f.channel != "" then Some(PostRef(f.messageId, f.channel)) else None)
  {
    SplitCompose(f);
    assert Compose(f)[..8] == ProductPrefix;
  }

  /** A prefix of a string is a shorter prefix followed by the part in between. */
  lemma PrefixSplit(s: string, i: nat, j: nat)
    requires i <= j <= |s|
    ensures s[..j] == s[..i] + s[i..j]
  {
  }

  /** A pair that does not occur at `i` in a prefix does not occur at `i` in the whole string. */
  lemma NoPairInPrefix(s: string, prefix: string, a: char, b: char, i: int)
    requires StartsWith(s, prefix) && 0 <= i && i + 1 < |prefix|
    requires !(prefix[i] == a && prefix[i + 1] == b)
    ensures !OccursAt(s, [a, b], i)
  {
    PairAt(s, a, b, i);
    assert s[i] == prefix[i] && s[i + 1] == prefix[i + 1];
  }

  /** Where the markers sit when the marker branch is taken on a `product_` argument. */
  lemma MarkerPositions(arg: string)
    requires StartsWith(arg, ProductPrefix) && SplitMarkers(arg).Some?
    requires |arg| > 8 ==> arg[8] != 'm'
    ensures var m, c := Find(arg, "_m"), Find(arg, "_c");
      8 <= m && m + 2 <= c && c + 2 <= |arg| && arg[m..m + 2] == "_m" && arg[c..c + 2] == "_c"
  {
    var m, c := Find(arg, "_m"), Find(arg, "_c");
    FindSpec(arg, "_m");
    FindSpec(arg, "_c");
    forall i | 0 <= i < 7 ensures !OccursAt(arg, "_m", i) {
      NoPairInPrefix(arg, ProductPrefix, '_', 'm', i);
    }
    PairAt(arg, '_', 'm', 7);
    PairAt(arg, '_', 'm', m);
    PairAt(arg, '_', 'c', c);
  }

  /** Cutting a string at two two-character markers and gluing the pieces back is the identity. */
  lemma Reassemble(arg: string, m: nat, c: nat)
    requires 8 <= m && m + 2 <= c && c + 2 <= |arg|
    requires arg[..8] == ProductPrefix && arg[m..m + 2] == "_m" && arg[c..c + 2] == "_c"
    ensures ProductPrefix + arg[8..m] + "_m" + arg[m + 2..c] + "_c" + arg[c + 2..] == arg
  {
    PrefixSplit(arg, 8, m);
    PrefixSplit(arg, m, m + 2);
    PrefixSplit(arg, m + 2, c);
    PrefixSplit(arg, c, c + 2);
    PrefixSplit(arg, c + 2, |arg|);
    calc {
      ProductPrefix + arg[8..m] + "_m" + arg[m + 2..c] + "_c" + arg[c + 2..];
      arg[..m] + "_m" + arg[m + 2..c] + "_c" + arg[c + 2..];
      arg[..m + 2] + arg[m + 2..c] + "_c" + arg[c + 2..];
      arg[..c] + "_c" + arg[c + 2..];
      arg[..c + 2] + arg[c + 2..];
      arg;
    }
  }

  /**
   Conversely, whenever the marker branch is taken on a `product_` argument
   whose SKU does not start with `m`, the fields put back together give the
   argument.
   */
  lemma ComposeSplit(arg: string)
    requires StartsWith(arg, ProductPrefix) && SplitMarkers(arg).Some?
    requires |arg| > 8 ==> arg[8] != 'm'
    ensures Compose(SplitMarkers(arg).value) == arg
  {
    var m, c := Find(arg, "_m"), Find(arg, "_c");
    MarkerPositions(arg);
    Reassemble(arg, m, c);
    assert SplitMarkers(arg).value == LinkFields(arg[8..m], arg[m + 2..c], arg[c + 2..]);
  }

  /**
   A SKU starting with `m` is lost: `_m` is found inside `product_m…`, so
   the marker branch, when taken, reads an empty SKU.
   */
  lemma SkuStartingWithM(arg: string)
    requires StartsWith(arg, "product_m")
    ensures Find(arg, "_m") == 7
    ensures SplitMarkers(arg).Some? ==> SplitMarkers(arg).value.sku == ""
  {
    PairAt(arg, '_', 'm', 7);
    forall i | 0 <= i < 7 ensures !OccursAt(arg, "_m", i) {
      NoPairInPrefix(arg, "product_m", '_', 'm', i);
    }
    FindIsFirst(arg, "_m", 7);
  }

  /**
   A SKU starting with `c` makes `_c` come first, so the link falls back
   to the older form and the channel post is forgotten.
   */
  lemma SkuStartingWithC(arg: string)
    requires StartsWith(arg, "product_c")
    ensures SplitMarkers(arg).None?
    ensures ParseStart([arg]).source.None?
  {
    PairAt(arg, '_', 'c', 7);
    forall i | 0 <= i < 7 ensures !OccursAt(arg, "_c", i) {
      NoPairInPrefix(arg, "product_c", '_', 'c', i);
    }
    FindIsFirst(arg, "_c", 7);
    forall i | 0 <= i <= 7 ensures !OccursAt(arg, "_m", i) {
      NoPairInPrefix(arg, "product_c", '_', 'm', i);
    }
    FindSpec(arg, "_m");
    assert arg[..8] == ProductPrefix;
  }

  /** A part of a string lying before the first occurrence of a pair holds no such pair. */
  lemma NoPairInSlice(s: string, lo: int, hi: int, a: char, b: char)
    requires 0 <= lo <= hi <= |s|
    requires forall i :: lo <= i && i + 1 < hi ==> !OccursAt(s, [a, b], i)
    ensures !Contains(s[lo..hi], [a, b])
  {
    var part := s[lo..hi];
    forall j | 0 <= j <= |part| ensures !OccursAt(part, [a, b], j) {
      PairAt(part, a, b, j);
      if j + 1 < |part| {
        PairAt(s, a, b, lo + j);
        assert part[j] == s[lo + j] && part[j + 1] == s[lo + j + 1];
      }
    }
  }

  /**
   Whenever the marker branch is taken on a `product_` argument whose SKU
   does not start with `m`, the fields it reads are unambiguous, so
   `SplitCompose` and `ParseStartCompose` describe every such link.
   */
  lemma MarkerFieldsUnambiguous(arg: string)
    requires StartsWith(arg, ProductPrefix) && SplitMarkers(arg).Some?
    requires |arg| > 8 ==> arg[8] != 'm'
    ensures Unambiguous(SplitMarkers(arg).value)
  {
    var m, c := Find(arg, "_m"), Find(arg, "_c");
    MarkerPositions(arg);
    FindSpec(arg, "_m");
    FindSpec(arg, "_c");
    var f := SplitMarkers(arg).value;
    assert f == LinkFields(arg[8..m], arg[m + 2..c], arg[c + 2..]);
    NoPairInSlice(arg, 8, m, '_', 'm');
    NoPairInSlice(arg, 8, m, '_', 'c');
    NoPairInSlice(arg, m + 2, c, '_', 'c');
    assert arg[7] == ProductPrefix[7];
    PairAt(arg, '_', 'c', 7);
    if f.sku != "" {
      assert f.sku[0] == arg[8];
    }
  }

  /**
   The older link form `product_<sku>` opens exactly `<sku>` and remembers
   no post, for every SKU without `_`.
   */
  lemma OldFormRoundTrip(sku: string)
    requires '_' !in sku
    ensures ParseProductLink(ProductPrefix + sku) == OpenProduct(sku, None)
    ensures ParseStart([ProductPrefix + sku]) == OpenProduct(sku, None)
  {
    var arg := ProductPrefix + sku;
    forall i | 8 <= i < |arg| ensures arg[i] != '_' {
      assert arg[i] == sku[i - 8];
    }
    forall i | 0 <= i < 7 ensures arg[i] != '_' {
      assert arg[i] == ProductPrefix[i];
    }
    var m, c := Find(arg, "_m"), Find(arg, "_c");
    FindSpec(arg, "_m");
    FindSpec(arg, "_c");
    PairAt(arg, '_', 'm', m);
    PairAt(arg, '_', 'c', c);
    assert m == -1 || m == 7;
    assert c == -1 || c == 7;
    assert SplitMarkers(arg).None?;
    RemoveAllAfterPrefix(sku, ProductPrefix);
    forall i | 0 <= i && i + 8 <= |sku| ensures !OccursAt(sku, ProductPrefix, i) {
      assert sku[i..i + 8][7] == sku[i + 7];
    }
    assert RemoveAll(arg, ProductPrefix) == sku;
    var r := FirstField(sku, '_');
    assert |r| == |sku|;
    assert arg[..8] == ProductPrefix;
  }

  /** Where the parts of a composed link sit. */
  lemma ComposeLayout(f: LinkFields)
    ensures var s, k, l := Compose(f), 8 + |f.sku|, 10 + |f.sku| + |f.messageId|;
      && |s| == l + 2 + |f.channel|
      && s[..8] == ProductPrefix && s[8..k] == f.sku
      && s[k] == '_' && s[k + 1] == 'm' && s[k + 2..l] == f.messageId
      && s[l] == '_' && s[l + 1] == 'c' && s[l + 2..] == f.channel
  {
  }

  /**
   Conversely, fields that a composed link reads back unchanged are
   unambiguous: `Unambiguous` is exactly the condition for the round trip.
   */
  lemma ReadBackNeedsUnambiguous(f: LinkFields)
    requires SplitMarkers(Compose(f)) == Some(f)
    ensures Unambiguous(f)
  {
    ReadBackMarkers(f);
    MarkersGiveUnambiguous(f);
  }

  /** When the split gives back the fields, the markers were found where they were put. */
  lemma ReadBackMarkers(f: LinkFields)
    requires SplitMarkers(Compose(f)) == Some(f)
    ensures Find(Compose(f), "_m") == 8 + |f.sku|
    ensures Find(Compose(f), "_c") == 10 + |f.sku| + |f.messageId|
  {
    var s, k := Compose(f), 8 + |f.sku|;
    ReadBackMessageMarker(f);
    ComposeLayout(f);
    var c := Find(s, "_c");
    FindSpec(s, "_c");
    PairAt(s, '_', 'c', c);
    assert k + 2 <= c;
    assert Slice(s, k + 2, c) == s[k + 2..c];
  }

  /** When the split gives back the SKU, `_m` was found right after it. */
  lemma ReadBackMessageMarker(f: LinkFields)
    requires SplitMarkers(Compose(f)) == Some(f)
    ensures Find(Compose(f), "_m") == 8 + |f.sku|
  {
    var s := Compose(f);
    ComposeLayout(f);
    var m := Find(s, "_m");
    FindSpec(s, "_m");
    PairAt(s, '_', 'm', m);
    forall i | 0 <= i < 7 ensures s[i] != '_' {
      assert s[i] == ProductPrefix[i];
    }
    assert f.sku == "" ==> s[8] == '_';
    assert 8 <= m;
    assert f.sku == Slice(s, 8, m) == s[8..m];
    assert |f.sku| == m - 8;
  }

  /** Markers first found where they were put leave no early marker in any field. */
  lemma MarkersGiveUnambiguous(f: LinkFields)
    requires Find(Compose(f), "_m") == 8 + |f.sku|
    requires Find(Compose(f), "_c") == 10 + |f.sku| + |f.messageId|
    ensures Unambiguous(f)
  {
    var s, k, l := Compose(f), 8 + |f.sku|, 10 + |f.sku| + |f.messageId|;
    ComposeLayout(f);
    FindSpec(s, "_m");
    FindSpec(s, "_c");
    NoPairInSlice(s, 8, k, '_', 'm');
    NoPairInSlice(s, 8, k, '_', 'c');
    NoPairInSlice(s, k + 2, l, '_', 'c');
    assert s[7] == ProductPrefix[7];
    PairAt(s, '_', 'm', 7);
    PairAt(s, '_', 'c', 7);
    if f.sku != "" {
      assert f.sku[0] == s[8];
    }
  }
}

=== FILE: emoji_enhancer.dfy ===
/**
 The entity builder of the channel-post handler: given the text the
 Markdown parser returned, the entities it found and the emoji map, find
 every occurrence of every mapped emoji, turn each into a custom-emoji
 entity with UTF-16 offset and length, and merge those with the Markdown
 entities ordered by offset. The text itself is never changed.
 */
module EmojiEnhancer {
  import opened Wrappers
  import opened TextSearch
  import opened StableSort
  import opened Utf16

  /** Message text as Unicode code points, the indices Python's `str` uses. */
  type Text = seq<int>

  /** One `emoji_map` entry, in the map's iteration order: a literal pattern and its document id. */
  datatype Rule = Rule(pattern: Text, documentId: int)

  /** One occurrence of a pattern: native indices `[start, end)`. */
  datatype Match = Match(start: nat, end: nat, emoji: Text, documentId: int)

  /** What an entity formats: a Markdown style kept opaque, or a custom emoji. */
  datatype EntityKind = Formatting(style: int) | CustomEmoji(documentId: int)

  /** A message entity; `offset` and `length` count UTF-16 code units. */
  datatype Entity = Entity(offset: int, length: int, kind: EntityKind)

  /** The message edit: the text to send and its entities. */
  datatype Edit = Edit(text: Text, entities: seq<Entity>)

  /** Every pattern is non-empty; an empty one would match at every index. */
  predicate ValidRules(rules: seq<Rule>) {
    forall i :: 0 <= i < |rules| ==> |rules[i].pattern| > 0
  }

  /** The match sits in the text and the text there is exactly the emoji. */
  predicate IsLiteralMatch(text: Text, m: Match) {
    m.start <= m.end <= |text| && text[m.start..m.end] == m.emoji
  }

  function Start(m: Match): int { m.start }

  function Offset(e: Entity): int { e.offset }

  /** The matches of one rule, as `re.finditer(re.escape(emoji), text)` yields them. */
  function RuleMatches(text: Text, rule: Rule): (ms: seq<Match>)
    requires |rule.pattern| > 0
    ensures |ms| == |FindAll(text, rule.pattern, 0)|
    ensures forall k :: 0 <= k < |ms| ==> ms[k].start == FindAll(text, rule.pattern, 0)[k]
    ensures forall k :: 0 <= k < |ms| ==>
      IsLiteralMatch(text, ms[k]) && ms[k].emoji == rule.pattern && ms[k].documentId == rule.documentId
    ensures forall k :: 0 <= k < |ms| - 1 ==> ms[k].end <= ms[k + 1].start
  {
    var starts := FindAll(text, rule.pattern, 0);
    seq(|starts|, k requires 0 <= k < |starts| =>
      Match(starts[k], starts[k] + |rule.pattern|, rule.pattern, rule.documentId))
  }

  /** All matches, rule by rule in map order, each rule's matches left to right. */
  function FindMatches(text: Text, rules: seq<Rule>): (ms: seq<Match>)
    requires ValidRules(rules)
    ensures forall k :: 0 <= k < |ms| ==>
      IsLiteralMatch(text, ms[k]) && Rule(ms[k].emoji, ms[k].documentId) in rules
  {
    if rules == [] then []
    else RuleMatches(text, rules[0]) + FindMatches(text, rules[1..])
  }

  /** The custom-emoji entity for one match. */
  function ToEntity(text: Text, m: Match): (e: Entity)
    requires IsLiteralMatch(text, m)
    ensures e.offset == Width(text[..m.start])
    ensures e.length == Width(m.emoji)
    ensures m.start <= e.offset && e.offset + e.length <= Width(text)
    ensures e.kind == CustomEmoji(m.documentId)
  {
    HalfByteLengthIsWidth(text[..m.start]);
    HalfByteLengthIsWidth(m.emoji);
    WidthBounds(text[..m.start]);
    assert text == text[..m.start] + m.emoji + text[m.end..];
    WidthAppend(text[..m.start] + m.emoji, text[m.end..]);
    WidthAppend(text[..m.start], m.emoji);
    Entity(|EncodeLE(text[..m.start])| / 2, |EncodeLE(m.emoji)| / 2, CustomEmoji(m.documentId))
  }

  /** One custom-emoji entity per match, in match order. */
  function EmojiEntities(text: Text, ms: seq<Match>): (es: seq<Entity>)
    requires forall k :: 0 <= k < |ms| ==> IsLiteralMatch(text, ms[k])
    ensures |es| == |ms|
    ensures forall k :: 0 <= k < |ms| ==>
      && IsLiteralMatch(text, ms[k])
      && es[k].offset == Width(text[..ms[k].start])
      && es[k].length == Width(ms[k].emoji)
      && es[k].kind == CustomEmoji(ms[k].documentId)
  {
    seq(|ms|, k requires 0 <= k < |ms| => ToEntity(text, ms[k]))
  }

  /** The matches sorted by start index; ties keep map order. */
  function SortedMatches(text: Text, rules: seq<Rule>): (ms: seq<Match>)
    requires ValidRules(rules)
    ensures multiset(ms) == multiset(FindMatches(text, rules))
    ensures SortedBy(ms, Start)
    ensures forall k :: 0 <= k < |ms| ==> IsLiteralMatch(text, ms[k])
  {
    var found := FindMatches(text, rules);
    var ms := Sort(found, Start);
    assert forall k :: 0 <= k < |ms| ==> ms[k] in multiset(found);
    ms
  }

  /** The custom-emoji entities the handler builds (`new_entities`). */
  function NewEntities(text: Text, rules: seq<Rule>): seq<Entity>
    requires ValidRules(rules)
  {
    EmojiEntities(text, SortedMatches(text, rules))
  }

  /**
   The handler's entity step: `None` when no emoji occurs (the message is
   left alone), otherwise the unchanged text with the Markdown entities
   and the emoji entities, stably sorted by offset.
   */
  function Enhance(text: Text, parsed: seq<Entity>, rules: seq<Rule>): (r: Option<Edit>)
    requires ValidRules(rules)
    ensures r.None? <==> FindMatches(text, rules) == []
    ensures r.Some? ==> r.value.text == text
    ensures r.Some? ==> SortedBy(r.value.entities, Offset)
    ensures r.Some? ==> |r.value.entities| == |parsed| + |FindMatches(text, rules)|
    ensures r.Some? ==>
      multiset(r.value.entities) == multiset(parsed) + multiset(NewEntities(text, rules))
  {
    var ms := SortedMatches(text, rules);
    var added := EmojiEntities(text, ms);
    if added == [] then None
    else Some(Edit(text, Sort(parsed + added, Offset)))
  }

  /** `m` is a match of `rule` whose span contains index `i`. */
  predicate Covers(m: Match, rule: Rule, i: int) {
    m.emoji == rule.pattern && m.documentId == rule.documentId && m.start <= i < m.end
  }

  /**
   Every occurrence of every rule's pattern is found: it is a match of that
   rule or lies inside one (an overlapping occurrence consumed by an
   earlier match of the same rule).
   */
  lemma {:induction false} FindMatchesComplete(text: Text, rules: seq<Rule>, j: nat, i: int)
    requires ValidRules(rules)
    requires j < |rules| && OccursAt(text, rules[j].pattern, i)
    ensures exists k :: 0 <= k < |FindMatches(text, rules)| && Covers(FindMatches(text, rules)[k], rules[j], i)
  {
    var head := RuleMatches(text, rules[0]);
    var ms := FindMatches(text, rules);
    assert ms == head + FindMatches(text, rules[1..]);
    if j == 0 {
      var p := rules[0].pattern;
      FindAllComplete(text, p, 0, i);
      var starts := FindAll(text, p, 0);
      var t :| 0 <= t < |starts| && starts[t] <= i < starts[t] + |p|;
      assert ms[t] == head[t];
    } else {
      FindMatchesComplete(text, rules[1..], j - 1, i);
      var k :| 0 <= k < |FindMatches(text, rules[1..])| && Covers(FindMatches(text, rules[1..])[k], rules[j], i);
      assert ms[|head| + k] == FindMatches(text, rules[1..])[k];
    }
  }

  /** The matches of one rule never overlap and ascend strictly by start. */
  lemma RuleMatchesDisjoint(text: Text, rule: Rule, a: int, b: int)
    requires |rule.pattern| > 0
    requires 0 <= a < b < |RuleMatches(text, rule)|
    ensures RuleMatches(text, rule)[a].end <= RuleMatches(text, rule)[b].start
  {
    FindAllDisjoint(text, rule.pattern, 0, a, b);
  }

  /** Sorting keeps map order among matches that start at the same index. */
  lemma SortedMatchesStable(text: Text, rules: seq<Rule>, start: int)
    requires ValidRules(rules)
    ensures WithKey(SortedMatches(text, rules), Start, start) == WithKey(FindMatches(text, rules), Start, start)
  {
    SortStable(FindMatches(text, rules), Start, start);
  }

  /** The UTF-16 offset is the start index plus one per supplementary character before it. */
  lemma OffsetCountsSurrogates(text: Text, m: Match)
    requires IsLiteralMatch(text, m)
    ensures ToEntity(text, m).offset == m.start + CountSupplementary(text[..m.start])
  {
    WidthCountsSupplementary(text[..m.start]);
  }

  /** With only BMP characters before the match, the UTF-16 offset is the native index. */
  lemma OffsetOfBmpPrefix(text: Text, m: Match)
    requires IsLiteralMatch(text, m)
    requires forall i :: 0 <= i < m.start ==> !IsSupplementary(text[i])
    ensures ToEntity(text, m).offset == m.start
  {
    var prefix := text[..m.start];
    WidthEqualsLengthIffBmp(prefix);
    assert forall i :: 0 <= i < |prefix| ==> prefix[i] == text[i];
  }

  /**
   The entity selects exactly the emoji's code units in the UTF-16 text,
   which is how the client reads `offset` and `length`.
   */
  lemma EntityCoversEmoji(text: Text, m: Match)
    requires IsLiteralMatch(text, m)
    ensures var e := ToEntity(text, m);
      0 <= e.offset && e.offset + e.length <= |Encode(text)|
      && Encode(text)[e.offset..e.offset + e.length] == Encode(m.emoji)
  {
    var pre, post := text[..m.start], text[m.end..];
    assert text == pre + m.emoji + post;
    EncodeAppend(pre + m.emoji, post);
    EncodeAppend(pre, m.emoji);
    EncodeLength(pre);
    EncodeLength(m.emoji);
    var u := Encode(pre) + Encode(m.emoji) + Encode(post);
    assert u[|Encode(pre)|..|Encode(pre)| + |Encode(m.emoji)|] == Encode(m.emoji);
  }

  /** Matches sorted by start give entities sorted by offset. */
  lemma NewEntitiesAscending(text: Text, rules: seq<Rule>)
    requires ValidRules(rules)
    ensures SortedBy(NewEntities(text, rules), Offset)
  {
    var ms := SortedMatches(text, rules);
    var es := NewEntities(text, rules);
    forall i, j | 0 <= i < j < |es| ensures Offset(es[i]) <= Offset(es[j]) {
      assert Start(ms[i]) <= Start(ms[j]);
      PrefixWidthMonotone(text, ms[i].start, ms[j].start);
    }
  }

  /**
   On equal offsets the Markdown entities come first, then the emoji
   entities, each group in its own order: the merge is stable.
   */
  lemma EnhanceTieBreak(text: Text, parsed: seq<Entity>, rules: seq<Rule>, offset: int)
    requires ValidRules(rules)
    requires Enhance(text, parsed, rules).Some?
    ensures WithKey(Enhance(text, parsed, rules).value.entities, Offset, offset)
         == WithKey(parsed, Offset, offset) + WithKey(NewEntities(text, rules), Offset, offset)
  {
    var added := NewEntities(text, rules);
    SortStable(parsed + added, Offset, offset);
    WithKeyAppend(parsed, added, Offset, offset);
  }

  /**
   The merge is the only stable one: any list sorted by offset that keeps,
   for every offset, the Markdown entities and then the emoji entities in
   their own order, is the handler's list.
   */
  lemma EnhanceIsTheStableMerge(text: Text, parsed: seq<Entity>, rules: seq<Rule>, r: seq<Entity>)
    requires ValidRules(rules)
    requires Enhance(text, parsed, rules).Some?
    requires SortedBy(r, Offset)
    requires forall k :: WithKey(r, Offset, k) == WithKey(parsed, Offset, k) + WithKey(NewEntities(text, rules), Offset, k)
    ensures r == Enhance(text, parsed, rules).value.entities
  {
    var added := NewEntities(text, rules);
    forall k
      ensures WithKey(r, Offset, k) == WithKey(parsed + added, Offset, k)
    {
      WithKeyAppend(parsed, added, Offset, k);
    }
    SortUnique(parsed + added, r, Offset);
  }

  /** When an edit happens, every Markdown entity and every emoji entity is in its entity list. */
  lemma EnhanceKeepsEveryEntity(text: Text, parsed: seq<Entity>, rules: seq<Rule>, e: Entity)
    requires ValidRules(rules)
    requires Enhance(text, parsed, rules).Some?
    requires e in parsed || e in NewEntities(text, rules)
    ensures e in Enhance(text, parsed, rules).value.entities
  {
    var r := Enhance(text, parsed, rules).value.entities;
    assert e in multiset(parsed) + multiset(NewEntities(text, rules));
    assert e in multiset(r);
  }
}

=== FILE: persian_digits.dfy ===
/**
 Normalising digits in user input (phone numbers): Extended Arabic-Indic
 (Persian) digits U+06F0..U+06F9 and Arabic-Indic digits U+0660..U+0669
 become the ASCII digits '0'..'9'; every other character is kept.
 */
module PersianDigits {
  import opened Wrappers

  predicate IsPersianDigit(c: char) {
    '\U{06F0}' <= c <= '\U{06F9}'
  }

  predicate IsArabicDigit(c: char) {
    '\U{0660}' <= c <= '\U{0669}'
  }

  predicate IsAsciiDigit(c: char) {
    '0' <= c <= '9'
  }

  /** The numeric value a digit of any of the three scripts stands for. */
  function DigitValue(c: char): Option<nat> {
    if IsAsciiDigit(c) then Some(c as int - '0' as int)
    else if IsPersianDigit(c) then Some(c as int - 0x06F0)
    else if IsArabicDigit(c) then Some(c as int - 0x0660)
    else None
  }

  /** The ASCII digit with value `d`. */
  function AsciiDigit(d: nat): (c: char)
    requires d < 10
    ensures IsAsciiDigit(c) && DigitValue(c) == Some(d)
  {
    ('0' as int + d) as char
  }

  /** One entry of the translation table built with `str.maketrans`. */
  function TranslateChar(c: char): char {
    if IsPersianDigit(c) then AsciiDigit(c as int - 0x06F0)
    else if IsArabicDigit(c) then AsciiDigit(c as int - 0x0660)
    else c
  }

  /** `convert_persian_to_english`: `text.translate(table)`. */
  function ToAsciiDigits(s: string): (r: string)
    ensures |r| == |s|
    ensures forall i :: 0 <= i < |s| ==> DigitValue(r[i]) == DigitValue(s[i])
    ensures forall i :: 0 <= i < |s| ==> !IsPersianDigit(r[i]) && !IsArabicDigit(r[i])
    ensures forall i :: 0 <= i < |s| && !IsPersianDigit(s[i]) && !IsArabicDigit(s[i]) ==> r[i] == s[i]
  {
    seq(|s|, i requires 0 <= i < |s| => TranslateChar(s[i]))
  }

  /** Translating twice is translating once. */
  lemma ToAsciiDigitsIdempotent(s: string)
    ensures ToAsciiDigits(ToAsciiDigits(s)) == ToAsciiDigits(s)
  {
    var r := ToAsciiDigits(s);
    var rr := ToAsciiDigits(r);
    forall i | 0 <= i < |s| ensures rr[i] == r[i] {
    }
  }

  /** Persian and Arabic digits map to the ASCII digit with the same index in their block. */
  lemma ToAsciiDigitsByIndex(s: string, i: int, d: nat)
    requires 0 <= i < |s| && d < 10
    requires s[i] as int == 0x06F0 + d || s[i] as int == 0x0660 + d
    ensures ToAsciiDigits(s)[i] as int == '0' as int + d
  {
  }

  /** Text without Persian or Arabic digits is returned unchanged. */
  lemma ToAsciiDigitsFixesAscii(s: string)
    requires forall i :: 0 <= i < |s| ==> !IsPersianDigit(s[i]) && !IsArabicDigit(s[i])
    ensures ToAsciiDigits(s) == s
  {
  }
}

=== FILE: quantity_rules.dfy ===
/**
 Whether a quantity the customer typed is admitted, when adding a product
 to the cart and when changing the quantity of a cart item. Both apply
 the price-tier minimum, lowered to 1 when fewer units than that minimum
 are left, and both refuse more than the stock allows, but only for
 products whose stock is managed and non-zero.
 */
module QuantityRules {
  import opened Wrappers
  import opened Catalog
  import opened Cart

  /** The reply: accepted, "at least `minimum`", or "not enough stock, at most `maximum`". */
  datatype Verdict = Accepted | BelowMinimum(minimum: int) | ExceedsStock(maximum: int)

  /** Row `i` is the first cart row for `productId`. */
  predicate FirstRowOf(cart: seq<CartItem>, productId: string, i: int) {
    0 <= i < |cart| && cart[i].productId == productId
    && forall j :: 0 <= j < i ==> cart[j].productId != productId
  }

  /**
   How many units of `productId` the cart already holds: the quantity of
   the first row with that id, or 0 when there is none.
   */
  function CartQuantityOf(cart: seq<CartItem>, productId: string): (q: int)
    ensures (forall i :: 0 <= i < |cart| ==> cart[i].productId != productId) ==> q == 0
    ensures forall i :: FirstRowOf(cart, productId, i) ==> q == cart[i].quantity
  {
    if cart == [] then 0
    else if cart[0].productId == productId then cart[0].quantity
    else
      var q := CartQuantityOf(cart[1..], productId);
      assert forall i :: 0 < i < |cart| ==> cart[i] == cart[1..][i - 1];
      q
  }

  /**
   Units of the product in rows other than the one being edited: rows with
   the edited id are skipped, rows with the product's id are added up.
   */
  function OtherCartQuantity(cart: seq<CartItem>, editingId: string, productId: string): (n: int)
    ensures editingId == productId ==> n == 0
  {
    if cart == [] then 0
    else
      var here := if cart[0].productId == editingId then 0
        else if cart[0].productId == productId then cart[0].quantity
        else 0;
      here + OtherCartQuantity(cart[1..], editingId, productId)
  }

  /** Admission of `q` more units of `p` on top of what the cart holds. */
  function AdmitNew(p: Product, cart: seq<CartItem>, q: int): (v: Verdict)
    ensures StockManaged(p) ==>
      var inCart := CartQuantityOf(cart, p.productId);
      var available := p.stockQuantity.value;
      (v == Accepted <==>
        inCart + q <= available
        && (p.minQuantity <= q || (available - inCart < p.minQuantity && 1 <= q)))
    ensures StockManaged(p) ==>
      var inCart := CartQuantityOf(cart, p.productId);
      var available := p.stockQuantity.value;
      var effectiveMin := if available - inCart < p.minQuantity then 1 else p.minQuantity;
      && (q < effectiveMin ==> v == BelowMinimum(effectiveMin))
      && (effectiveMin <= q && available < inCart + q ==> v == ExceedsStock(available - inCart))
    ensures !StockManaged(p) ==> (v == Accepted <==> p.minQuantity <= q)
    ensures !StockManaged(p) && q < p.minQuantity ==> v == BelowMinimum(p.minQuantity)
    ensures v.BelowMinimum? ==> q < v.minimum <= p.minQuantity || q < v.minimum == 1
    ensures v.ExceedsStock? ==> StockManaged(p) && v.maximum < q
  {
    var inCart := CartQuantityOf(cart, p.productId);
    if StockManaged(p) then
      var available := p.stockQuantity.value;
      var remaining := available - inCart;
      var effectiveMin := if remaining < p.minQuantity then 1 else p.minQuantity;
      if q < effectiveMin then BelowMinimum(effectiveMin)
      else if inCart + q > available then ExceedsStock(remaining)
      else Accepted
    else if q < p.minQuantity then BelowMinimum(p.minQuantity)
    else Accepted
  }

  /**
   Admission of `q` as the new quantity of cart item `editingId`, where
   `p` is the catalogue record fetched for `editingId` and the minimum is
   recomputed from its price.
   */
  function AdmitEdit(p: Product, editingId: string, cart: seq<CartItem>, q: int): (v: Verdict)
    ensures StockManaged(p) && p.productId == editingId ==>
      var available := p.stockQuantity.value;
      (v == Accepted <==>
        q <= available && (MinQuantity(p.price) <= q || (available < MinQuantity(p.price) && 1 <= q)))
    ensures StockManaged(p) ==>
      var available := p.stockQuantity.value;
      var remaining := available - OtherCartQuantity(cart, editingId, p.productId);
      var effectiveMin := if remaining < MinQuantity(p.price) then 1 else MinQuantity(p.price);
      && (q < effectiveMin ==> v == BelowMinimum(effectiveMin))
      && (effectiveMin <= q && remaining < q ==> v == ExceedsStock(remaining))
    ensures !StockManaged(p) ==> (v == Accepted <==> MinQuantity(p.price) <= q)
    ensures !StockManaged(p) && q < MinQuantity(p.price) ==> v == BelowMinimum(MinQuantity(p.price))
    ensures v.ExceedsStock? ==> StockManaged(p) && v.maximum < q
  {
    var originalMin := MinQuantity(p.price);
    if StockManaged(p) then
      var available := p.stockQuantity.value;
      var otherCartQty := OtherCartQuantity(cart, editingId, p.productId);
      var remaining := available - otherCartQty;
      var effectiveMin := if remaining < originalMin then 1 else originalMin;
      if q < effectiveMin then BelowMinimum(effectiveMin)
      else if q > remaining then ExceedsStock(remaining)
      else Accepted
    else if q < originalMin then BelowMinimum(originalMin)
    else Accepted
  }

  /**
   The minimum is lowered so that remaining stock can always be bought:
   when at least one unit is left, asking for all of it is accepted.
   */
  lemma DynamicMinimumNeverStrands(p: Product, cart: seq<CartItem>)
    requires StockManaged(p)
    requires 1 <= p.stockQuantity.value - CartQuantityOf(cart, p.productId)
    ensures AdmitNew(p, cart, p.stockQuantity.value - CartQuantityOf(cart, p.productId)) == Accepted
  {
  }

  /** An accepted addition never takes the cart beyond the managed stock. */
  lemma AcceptedAddFitsStock(p: Product, cart: seq<CartItem>, q: int)
    requires StockManaged(p) && 1 <= p.minQuantity && AdmitNew(p, cart, q) == Accepted
    ensures CartQuantityOf(cart, p.productId) + q <= p.stockQuantity.value
    ensures 1 <= q
  {
  }

  /**
   A managed product whose stock is 0 is treated as unmanaged: any
   quantity meeting the minimum is accepted although nothing is in stock.
   */
  lemma ZeroStockIsUnlimited(p: Product, cart: seq<CartItem>)
    requires p.manageStock && p.stockQuantity == Some(0)
    ensures forall q :: p.minQuantity <= q ==> AdmitNew(p, cart, q) == Accepted
    ensures forall q :: q < p.minQuantity ==> AdmitNew(p, cart, q) == BelowMinimum(p.minQuantity)
  {
  }

  /**
   Since the fetched record's id is the edited id, no other row counts:
   editing behaves as adding to an empty cart with the price-tier minimum.
   */
  lemma EditMirrorsAdd(p: Product, editingId: string, cart: seq<CartItem>, q: int)
    requires p.productId == editingId
    ensures AdmitEdit(p, editingId, cart, q) == AdmitNew(p.(minQuantity := MinQuantity(p.price)), [], q)
  {
  }

  /** For a record built by the catalogue lookup, the edit path uses the record's own minimum. */
  lemma EditOfFetchedProduct(sku: string, name: Option<string>, price: real, status: string,
                             stock: Option<int>, manage: bool, cart: seq<CartItem>, q: int)
    ensures var p := ProductFromCatalog(sku, name, price, status, stock, manage);
      AdmitEdit(p, sku, cart, q) == AdmitNew(p, [], q)
  {
    var p := ProductFromCatalog(sku, name, price, status, stock, manage);
    EditMirrorsAdd(p, sku, cart, q);
    assert p.(minQuantity := MinQuantity(p.price)) == p;
  }
}

=== FILE: scenarios.dfy ===
/**
 Worked examples of the entity builder on concrete messages: two emoji
 (supplementary characters) before the matched word shift its UTF-16
 offset by two.
 */
module EnhancerScenarios {
  import opened Wrappers
  import opened TextSearch
  import opened Utf16
  import opened EmojiEnhancer

  /** "😀😀 hi" as code points. */
  const Grinning := 0x1F600
  const TwoEmojiHi: Text := [Grinning, Grinning, 32, 104, 105]
  const Hi: Text := [104, 105]

  /** The only occurrence of "hi" in "😀😀 hi" is at native index 3. */
  lemma TwoEmojiHiMatches()
    ensures FindMatches(TwoEmojiHi, [Rule(Hi, 7)]) == [Match(3, 5, Hi, 7)]
  {
    var text, p := TwoEmojiHi, Hi;
    assert text[0..2][0] != p[0];
    assert text[1..3][0] != p[0];
    assert text[2..4][0] != p[0];
    assert text[3..5] == p;
    assert FindFrom(text, p, 3) == 3;
    assert FindFrom(text, p, 2) == 3;
    assert FindFrom(text, p, 1) == 3;
    assert FindFrom(text, p, 0) == 3;
    assert FindAll(text, p, 5) == [];
    assert FindAll(text, p, 0) == [3];
    assert RuleMatches(text, Rule(p, 7)) == [Match(3, 5, p, 7)];
    assert [Rule(p, 7)][1..] == [];
  }

  /** "😀😀 " is five UTF-16 code units long. */
  lemma TwoEmojiSpaceWidth()
    ensures Width(TwoEmojiHi[..3]) == 5
  {
    var pre: Text := [Grinning, Grinning, 32];
    assert TwoEmojiHi[..3] == pre;
    assert pre[1..] == [Grinning, 32];
    assert pre[1..][1..] == [32];
    assert [32][1..] == [];
    assert Width([32]) == 1;
    assert Width(pre[1..]) == 3;
  }

  /** The emoji entity for "hi" in "😀😀 hi" has offset 5 and length 2. */
  lemma TwoEmojiHiScenario()
    ensures Enhance(TwoEmojiHi, [], [Rule(Hi, 7)])
         == Some(Edit(TwoEmojiHi, [Entity(5, 2, CustomEmoji(7))]))
  {
    var rules := [Rule(Hi, 7)];
    var m := Match(3, 5, Hi, 7);
    TwoEmojiHiMatches();
    assert SortedMatches(TwoEmojiHi, rules) == [m];
    TwoEmojiSpaceWidth();
    assert Hi[1..][1..] == [];
    assert Width(Hi) == 2;
    assert NewEntities(TwoEmojiHi, rules) == [Entity(5, 2, CustomEmoji(7))];
  }
}

=== FILE: stable_sort.dfy ===
/**
 Stable sorting by an integer key, the behaviour of Python's `list.sort(key=...)`:
 the result is ordered by key and elements with equal keys keep their
 input order. The sort itself is an insertion sort; `SortUnique` shows
 that every stable sort gives the same result.
 */
module StableSort {

  /** `s` is in non-decreasing order of `key`. */
  predicate SortedBy<T>(s: seq<T>, key: T -> int) {
    forall i, j :: 0 <= i < j < |s| ==> key(s[i]) <= key(s[j])
  }

  /** The elements of `s` whose key is `k`, in their order in `s`. */
  function WithKey<T>(s: seq<T>, key: T -> int, k: int): seq<T> {
    if s == [] then []
    else (if key(s[0]) == k then [s[0]] else []) + WithKey(s[1..], key, k)
  }

  /**
   Inserts `x` into `s` before the first element whose key is not smaller,
   so that `x` goes ahead of every element with the same key.
   */
  function Insert<T>(x: T, s: seq<T>, key: T -> int): (r: seq<T>)
    ensures |r| == |s| + 1
    ensures multiset(r) == multiset(s) + multiset{x}
    ensures SortedBy(s, key) ==> SortedBy(r, key)
  {
    if s == [] then [x]
    else if key(x) <= key(s[0]) then
      ConsLeast(x, s, key);
      [x] + s
    else
      var rest := Insert(x, s[1..], key);
      assert s == [s[0]] + s[1..];
      assert multiset(rest) == multiset(s[1..]) + multiset{x};
      ConsBelow(s[0], x, s[1..], rest, key);
      [s[0]] + rest
  }

  /** An element no greater than the head of a sorted sequence can go in front of it. */
  lemma ConsLeast<T>(x: T, s: seq<T>, key: T -> int)
    requires s != [] && key(x) <= key(s[0])
    ensures SortedBy(s, key) ==> SortedBy([x] + s, key)
  {
    if SortedBy(s, key) {
      var r := [x] + s;
      forall i, j | 0 <= i < j < |r| ensures key(r[i]) <= key(r[j]) {
        assert r[j] == s[j - 1];
        if i > 0 {
          assert r[i] == s[i - 1];
        } else if j > 1 {
          assert key(s[0]) <= key(s[j - 1]);
        }
      }
    }
  }

  /**
   Putting `h` in front of `rest` keeps it sorted when every element of
   `rest` is `x` or comes from a tail that `h` was already sorted before.
   */
  lemma ConsBelow<T>(h: T, x: T, tail: seq<T>, rest: seq<T>, key: T -> int)
    requires key(h) < key(x)
    requires multiset(rest) == multiset(tail) + multiset{x}
    ensures SortedBy([h] + tail, key) && SortedBy(rest, key) ==> SortedBy([h] + rest, key)
  {
    if SortedBy([h] + tail, key) && SortedBy(rest, key) {
      forall i | 0 <= i < |rest| ensures key(h) <= key(rest[i]) {
        assert rest[i] in multiset(rest);
        if rest[i] != x {
          assert rest[i] in multiset(tail);
          var j :| 0 <= j < |tail| && tail[j] == rest[i];
          assert ([h] + tail)[0] == h;
          assert ([h] + tail)[j + 1] == tail[j];
        }
      }
      var r := [h] + rest;
      forall i, j | 0 <= i < j < |r| ensures key(r[i]) <= key(r[j]) {
        assert r[j] == rest[j - 1];
        if i > 0 {
          assert r[i] == rest[i - 1];
        }
      }
    }
  }

  /** Stable insertion sort of `s` by `key`. */
  function Sort<T>(s: seq<T>, key: T -> int): (r: seq<T>)
    ensures |r| == |s|
    ensures multiset(r) == multiset(s)
    ensures SortedBy(r, key)
  {
    if s == [] then []
    else
      assert s == [s[0]] + s[1..];
      Insert(s[0], Sort(s[1..], key), key)
  }

  /** Selecting by key distributes over concatenation. */
  lemma {:induction false} WithKeyAppend<T>(a: seq<T>, b: seq<T>, key: T -> int, k: int)
    ensures WithKey(a + b, key, k) == WithKey(a, key, k) + WithKey(b, key, k)
  {
    if a == [] {
      assert a + b == b;
    } else {
      var h := if key(a[0]) == k then [a[0]] else [];
      assert (a + b)[0] == a[0];
      assert (a + b)[1..] == a[1..] + b;
      WithKeyAppend(a[1..], b, key, k);
      calc {
        WithKey(a + b, key, k);
        h + WithKey(a[1..] + b, key, k);
        h + (WithKey(a[1..], key, k) + WithKey(b, key, k));
        (h + WithKey(a[1..], key, k)) + WithKey(b, key, k);
        WithKey(a, key, k) + WithKey(b, key, k);
      }
    }
  }

  /** Inserting `x` adds it at the front of the elements sharing its key. */
  lemma {:induction false} InsertStable<T>(x: T, s: seq<T>, key: T -> int, k: int)
    ensures WithKey(Insert(x, s, key), key, k)
         == (if key(x) == k then [x] else []) + WithKey(s, key, k)
  {
    if s != [] && key(x) > key(s[0]) {
      var rest := Insert(x, s[1..], key);
      assert Insert(x, s, key) == [s[0]] + rest;
      assert s == [s[0]] + s[1..];
      WithKeyCons(s[0], rest, key, k);
      WithKeyCons(s[0], s[1..], key, k);
      InsertStable(x, s[1..], key, k);
      var mine := if key(x) == k then [x] else [];
      var tail := WithKey(s[1..], key, k);
      if key(s[0]) == k {
        assert mine == [];
        assert WithKey(rest, key, k) == tail;
        assert WithKey(Insert(x, s, key), key, k) == [s[0]] + tail;
        assert WithKey(s, key, k) == [s[0]] + tail;
      } else {
        assert WithKey(Insert(x, s, key), key, k) == WithKey(rest, key, k);
        assert WithKey(rest, key, k) == mine + tail;
        assert WithKey(s, key, k) == tail;
      }
    } else if s != [] {
      WithKeyCons(x, s, key, k);
    } else {
      WithKeyCons(x, s, key, k);
    }
  }

  /** Selecting from a sequence with a known first element. */
  lemma WithKeyCons<T>(y: T, t: seq<T>, key: T -> int, k: int)
    ensures WithKey([y] + t, key, k) == (if key(y) == k then [y] else []) + WithKey(t, key, k)
  {
    assert ([y] + t)[0] == y;
    assert ([y] + t)[1..] == t;
  }

  /** The sort is stable: for every key, the elements with that key keep their order. */
  lemma {:induction false} SortStable<T>(s: seq<T>, key: T -> int, k: int)
    ensures WithKey(Sort(s, key), key, k) == WithKey(s, key, k)
  {
    if s != [] {
      InsertStable(s[0], Sort(s[1..], key), key, k);
      SortStable(s[1..], key, k);
    }
  }

  /** Every element selected by key `k` is an element of `s` with key `k`. */
  lemma {:induction false} WithKeyMember<T>(s: seq<T>, key: T -> int, k: int, y: T)
    requires y in WithKey(s, key, k)
    ensures y in s && key(y) == k
  {
    if s != [] && !(key(s[0]) == k && y == s[0]) {
      WithKeyMember(s[1..], key, k, y);
    }
  }

  /** The group of the first element's key starts with that element. */
  lemma WithKeyOfHead<T>(s: seq<T>, key: T -> int)
    requires s != []
    ensures WithKey(s, key, key(s[0])) != []
    ensures WithKey(s, key, key(s[0]))[0] == s[0]
  {
  }

  /**
   A sorted sequence is determined by its elements grouped by key: two
   sorted sequences that agree on every key's group are equal.
   */
  lemma {:induction false} SortedGroupsDetermine<T>(r1: seq<T>, r2: seq<T>, key: T -> int)
    requires SortedBy(r1, key) && SortedBy(r2, key)
    requires forall k :: WithKey(r1, key, k) == WithKey(r2, key, k)
    ensures r1 == r2
    decreases |r1| + |r2|
  {
    if r1 == [] && r2 != [] {
      WithKeyOfHead(r2, key);
    } else if r1 != [] && r2 == [] {
      WithKeyOfHead(r1, key);
    } else if r1 != [] && r2 != [] {
      SameHead(r1, r2, key);
      TailGroups(r1, r2, key);
      SortedGroupsDetermine(r1[1..], r2[1..], key);
      assert r1 == [r1[0]] + r1[1..];
      assert r2 == [r2[0]] + r2[1..];
    }
  }

  /** Two sorted sequences with the same groups start with the same element. */
  lemma SameHead<T>(r1: seq<T>, r2: seq<T>, key: T -> int)
    requires r1 != [] && r2 != []
    requires SortedBy(r1, key) && SortedBy(r2, key)
    requires forall k :: WithKey(r1, key, k) == WithKey(r2, key, k)
    ensures r1[0] == r2[0]
  {
    var k1, k2 := key(r1[0]), key(r2[0]);
    WithKeyOfHead(r1, key);
    WithKeyOfHead(r2, key);
    assert r1[0] in WithKey(r2, key, k1);
    WithKeyMember(r2, key, k1, r1[0]);
    assert r2[0] in WithKey(r1, key, k2);
    WithKeyMember(r1, key, k2, r2[0]);
    HeadIsLeast(r1, key, r2[0]);
    HeadIsLeast(r2, key, r1[0]);
    assert k1 == k2;
    assert r1[0] == WithKey(r1, key, k1)[0] == WithKey(r2, key, k2)[0] == r2[0];
  }

  /** The first element of a sorted sequence has the least key. */
  lemma HeadIsLeast<T>(r: seq<T>, key: T -> int, y: T)
    requires r != [] && SortedBy(r, key) && y in r
    ensures key(r[0]) <= key(y)
  {
    var j :| 0 <= j < |r| && r[j] == y;
    if j > 0 {
      assert key(r[0]) <= key(r[j]);
    }
  }

  /** Removing a shared first element keeps the groups equal. */
  lemma TailGroups<T>(r1: seq<T>, r2: seq<T>, key: T -> int)
    requires r1 != [] && r2 != [] && r1[0] == r2[0]
    requires forall k :: WithKey(r1, key, k) == WithKey(r2, key, k)
    ensures forall k :: WithKey(r1[1..], key, k) == WithKey(r2[1..], key, k)
  {
    forall k
      ensures WithKey(r1[1..], key, k) == WithKey(r2[1..], key, k)
    {
      var h := if key(r1[0]) == k then [r1[0]] else [];
      assert WithKey(r1, key, k) == h + WithKey(r1[1..], key, k);
      assert WithKey(r2, key, k) == h + WithKey(r2[1..], key, k);
      assert WithKey(r1[1..], key, k) == (h + WithKey(r1[1..], key, k))[|h|..];
      assert WithKey(r2[1..], key, k) == (h + WithKey(r2[1..], key, k))[|h|..];
    }
  }

  /**
   `Sort` is the only stable sort: any sequence that is sorted by `key` and
   keeps each key's elements in input order equals `Sort(s, key)`.
   */
  lemma SortUnique<T>(s: seq<T>, r: seq<T>, key: T -> int)
    requires SortedBy(r, key)
    requires forall k :: WithKey(r, key, k) == WithKey(s, key, k)
    ensures r == Sort(s, key)
  {
    forall k
      ensures WithKey(r, key, k) == WithKey(Sort(s, key), key, k)
    {
      SortStable(s, key, k);
    }
    SortedGroupsDetermine(r, Sort(s, key), key);
  }
}

=== FILE: text_search.dfy ===
/**
 Literal substring search over sequences: Python's `str.find` and the
 matches `re.finditer(re.escape(p), s)` yields for a non-empty literal `p`
 (leftmost occurrence first, scanning resumes at the end of each match).
 */
module TextSearch {

  /** `p` occurs in `s` starting at index `i`. */
  predicate OccursAt<T(==)>(s: seq<T>, p: seq<T>, i: int) {
    0 <= i && i + |p| <= |s| && s[i..i + |p|] == p
  }

  /** `p` occurs somewhere in `s` (Python's `p in s`). */
  predicate Contains<T(==)>(s: seq<T>, p: seq<T>) {
    exists i :: 0 <= i <= |s| && OccursAt(s, p, i)
  }

  /** The first index at or after `from` where `p` occurs, or -1 when there is none. */
  function FindFrom<T(==)>(s: seq<T>, p: seq<T>, from: nat): (r: int)
    ensures r == -1 || (from <= r && OccursAt(s, p, r))
    ensures r == -1 ==> forall i :: from <= i ==> !OccursAt(s, p, i)
    ensures r != -1 ==> forall i :: from <= i < r ==> !OccursAt(s, p, i)
    decreases |s| - from
  {
    if from + |p| > |s| then -1
    else if s[from..from + |p|] == p then from
    else FindFrom(s, p, from + 1)
  }

  /** Python's `s.find(p)`. */
  function Find<T(==)>(s: seq<T>, p: seq<T>): int {
    FindFrom(s, p, 0)
  }

  /** `Find` returns exactly the first occurrence: it is -1 iff `p` does not occur. */
  lemma FindSpec<T>(s: seq<T>, p: seq<T>)
    ensures Find(s, p) == -1 <==> !Contains(s, p)
    ensures Find(s, p) != -1 ==> OccursAt(s, p, Find(s, p))
    ensures forall i :: 0 <= i < Find(s, p) ==> !OccursAt(s, p, i)
  {
  }

  /** An occurrence with no earlier occurrence is what `Find` returns. */
  lemma FindIsFirst<T>(s: seq<T>, p: seq<T>, k: nat)
    requires OccursAt(s, p, k)
    requires forall i :: 0 <= i < k ==> !OccursAt(s, p, i)
    ensures Find(s, p) == k
  {
    var r := Find(s, p);
    assert r != -1;
  }

  /**
   Start indices of the non-overlapping occurrences of the non-empty `p`
   in `s` at or after `from`, left to right: each search resumes where the
   previous match ended.
   */
  function FindAll<T(==)>(s: seq<T>, p: seq<T>, from: nat): (ms: seq<nat>)
    requires |p| > 0
    ensures forall k :: 0 <= k < |ms| ==> from <= ms[k] && OccursAt(s, p, ms[k])
    ensures forall k :: 0 <= k < |ms| - 1 ==> ms[k] + |p| <= ms[k + 1]
    decreases |s| - from
  {
    var i := FindFrom(s, p, from);
    if i == -1 then []
    else [i] + FindAll(s, p, i + |p|)
  }

  /** Index `i` lies inside one of the matches starting at `ms`, each `w` long. */
  predicate Covered(ms: seq<nat>, w: nat, i: int) {
    exists k :: 0 <= k < |ms| && ms[k] <= i < ms[k] + w
  }

  /**
   `FindAll` misses nothing: every occurrence at or after `from` either is
   a match or overlaps one (it was consumed by an earlier, leftmost match).
   */
  lemma {:induction false} FindAllComplete<T>(s: seq<T>, p: seq<T>, from: nat, i: int)
    requires |p| > 0
    requires from <= i && OccursAt(s, p, i)
    ensures Covered(FindAll(s, p, from), |p|, i)
    decreases |s| - from
  {
    var j := FindFrom(s, p, from);
    FindFromReaches(s, p, from, i);
    FindAllStep(s, p, from);
    var rest := FindAll(s, p, j + |p|);
    if j + |p| <= i {
      FindAllComplete(s, p, j + |p|, i);
    }
    CoveredCons(j, rest, |p|, i);
  }

  /** An occurrence at `i` means the search from `from <= i` succeeds no later than `i`. */
  lemma FindFromReaches<T>(s: seq<T>, p: seq<T>, from: nat, i: int)
    requires from <= i && OccursAt(s, p, i)
    ensures 0 <= FindFrom(s, p, from) <= i
  {
  }

  /** A new first match covers its own span and keeps what the others cover. */
  lemma CoveredCons(j: nat, rest: seq<nat>, w: nat, i: int)
    requires (j <= i < j + w) || Covered(rest, w, i)
    ensures Covered([j] + rest, w, i)
  {
    var ms := [j] + rest;
    if j <= i < j + w {
      assert ms[0] == j;
    } else {
      var k :| 0 <= k < |rest| && rest[k] <= i < rest[k] + w;
      assert ms[k + 1] == rest[k];
    }
  }

  /** Matches are strictly ascending, so pairwise disjoint, not only neighbours. */
  lemma {:induction false} FindAllDisjoint<T>(s: seq<T>, p: seq<T>, from: nat, a: int, b: int)
    requires |p| > 0
    requires 0 <= a < b < |FindAll(s, p, from)|
    ensures FindAll(s, p, from)[a] + |p| <= FindAll(s, p, from)[b]
    decreases b - a
  {
    var ms := FindAll(s, p, from);
    if a + 1 < b {
      FindAllDisjoint(s, p, from, a + 1, b);
    }
  }

  /**
   `ms` looks like the output of a leftmost, non-overlapping scan from
   `from`: occurrences at or after `from`, each starting at or after the end
   of the previous one, together covering every occurrence at or after `from`.
   */
  ghost predicate ScanOf<T>(s: seq<T>, p: seq<T>, from: nat, ms: seq<nat>) {
    && (forall k :: 0 <= k < |ms| ==> from <= ms[k] && OccursAt(s, p, ms[k]))
    && (forall k :: 0 <= k < |ms| - 1 ==> ms[k] + |p| <= ms[k + 1])
    && (forall i {:trigger Covered(ms, |p|, i)} :: from <= i && OccursAt(s, p, i) ==> Covered(ms, |p|, i))
  }

  /**
   The matches are the only ones a leftmost, non-overlapping scan can
   produce: any ascending, non-overlapping list of occurrences at or after
   `from` that covers every occurrence is `FindAll`.
   */
  lemma {:induction false} FindAllUnique<T>(s: seq<T>, p: seq<T>, from: nat, ms: seq<nat>)
    requires |p| > 0
    requires ScanOf(s, p, from, ms)
    ensures ms == FindAll(s, p, from)
    decreases |s| - from
  {
    FindAllStep(s, p, from);
    var j := FindFrom(s, p, from);
    if j == -1 {
      ScanEmptyIff(s, p, from, ms);
    } else {
      ScanTail(s, p, from, ms);
      FindAllUnique(s, p, j + |p|, ms[1..]);
      assert ms == [j] + ms[1..];
    }
  }

  /** One step of the scan: the first match, then a scan from its end. */
  lemma FindAllStep<T>(s: seq<T>, p: seq<T>, from: nat)
    requires |p| > 0
    ensures FindFrom(s, p, from) == -1 ==> FindAll(s, p, from) == []
    ensures FindFrom(s, p, from) != -1 ==>
      FindAll(s, p, from) == [FindFrom(s, p, from)] + FindAll(s, p, FindFrom(s, p, from) + |p|)
  {
  }

  /** A scan is empty exactly when no occurrence is left. */
  lemma ScanEmptyIff<T>(s: seq<T>, p: seq<T>, from: nat, ms: seq<nat>)
    requires |p| > 0
    requires ScanOf(s, p, from, ms)
    ensures ms == [] <==> FindFrom(s, p, from) == -1
  {
    if FindFrom(s, p, from) != -1 {
      FirstMatch(s, p, from, ms);
    }
    if ms != [] {
      assert from <= ms[0] && OccursAt(s, p, ms[0]);
    }
  }

  /** A scan starts with the leftmost occurrence and continues from its end. */
  lemma ScanTail<T>(s: seq<T>, p: seq<T>, from: nat, ms: seq<nat>)
    requires |p| > 0
    requires ScanOf(s, p, from, ms)
    requires FindFrom(s, p, from) != -1
    ensures |ms| > 0 && ms[0] == FindFrom(s, p, from)
    ensures ScanOf(s, p, ms[0] + |p|, ms[1..])
  {
    FirstMatch(s, p, from, ms);
    var j := ms[0];
    TailCovers(s, p, j, ms);
    TailBounds(s, p, j, ms, ms[1..]);
  }

  /** A covering list of matches starts with the leftmost occurrence. */
  lemma FirstMatch<T>(s: seq<T>, p: seq<T>, from: nat, ms: seq<nat>)
    requires |p| > 0
    requires ScanOf(s, p, from, ms)
    requires FindFrom(s, p, from) != -1
    ensures |ms| > 0 && ms[0] == FindFrom(s, p, from)
  {
    var j := FindFrom(s, p, from);
    assert Covered(ms, |p|, j);
    var k :| 0 <= k < |ms| && ms[k] <= j < ms[k] + |p|;
    Ascending(ms, |p|, 0, k);
    assert from <= ms[0] && OccursAt(s, p, ms[0]);
  }

  /** Dropping the first match keeps every later occurrence covered. */
  lemma TailCovers<T>(s: seq<T>, p: seq<T>, j: nat, ms: seq<nat>)
    requires |ms| > 0 && ms[0] == j
    requires forall i {:trigger Covered(ms, |p|, i)} :: j <= i && OccursAt(s, p, i) ==> Covered(ms, |p|, i)
    ensures forall i {:trigger Covered(ms[1..], |p|, i)} :: j + |p| <= i && OccursAt(s, p, i) ==> Covered(ms[1..], |p|, i)
  {
    forall i | j + |p| <= i && OccursAt(s, p, i)
      ensures Covered(ms[1..], |p|, i)
    {
      assert Covered(ms, |p|, i);
      var t :| 0 <= t < |ms| && ms[t] <= i < ms[t] + |p|;
      assert t != 0;
      assert ms[1..][t - 1] == ms[t];
    }
  }

  /** After the first match, the others start at or after its end and keep their spacing. */
  lemma TailBounds<T>(s: seq<T>, p: seq<T>, j: nat, ms: seq<nat>, rest: seq<nat>)
    requires |ms| > 0 && ms[0] == j && rest == ms[1..]
    requires forall k :: 0 <= k < |ms| ==> OccursAt(s, p, ms[k])
    requires forall k :: 0 <= k < |ms| - 1 ==> ms[k] + |p| <= ms[k + 1]
    ensures forall t :: 0 <= t < |rest| ==> j + |p| <= rest[t] && OccursAt(s, p, rest[t])
    ensures forall t :: 0 <= t < |rest| - 1 ==> rest[t] + |p| <= rest[t + 1]
  {
    forall t | 0 <= t < |rest|
      ensures j + |p| <= rest[t] && OccursAt(s, p, rest[t])
    {
      Ascending(ms, |p|, 0, t + 1);
      assert rest[t] == ms[t + 1];
    }
    forall t | 0 <= t < |rest| - 1
      ensures rest[t] + |p| <= rest[t + 1]
    {
      assert rest[t] == ms[t + 1] && rest[t + 1] == ms[t + 2];
    }
  }

  /** Neighbour spacing of at least `w` gives spacing between any two entries. */
  lemma {:induction false} Ascending(ms: seq<nat>, w: nat, a: int, b: int)
    requires forall k :: 0 <= k < |ms| - 1 ==> ms[k] + w <= ms[k + 1]
    requires 0 <= a <= b < |ms|
    ensures ms[a] <= ms[b]
    ensures a < b ==> ms[a] + w <= ms[b]
    decreases b - a
  {
    if a < b {
      Ascending(ms, w, a + 1, b);
    }
  }
}

=== FILE: utf16.dfy ===
/**
 UTF-16 as Telegram counts entity offsets. Text is a sequence of Unicode
 scalar values (what Python's `str` indexes); a value at or above U+10000
 is written as a surrogate pair, so it takes two 16-bit code units.
 */
module Utf16 {

  /** Python's `str` element: a code point. Valid text holds scalar values only. */
  predicate IsScalar(c: int) {
    0 <= c <= 0x10FFFF && !(0xD800 <= c <= 0xDFFF)
  }

  predicate IsScalarText(s: seq<int>) {
    forall i :: 0 <= i < |s| ==> IsScalar(s[i])
  }

  /** A character outside the Basic Multilingual Plane. */
  predicate IsSupplementary(c: int) {
    c >= 0x10000
  }

  /** Code units needed for one character: `utf16Len`. */
  function UnitLen(c: int): nat {
    if IsSupplementary(c) then 2 else 1
  }

  /** Code units needed for a text: the sum of `UnitLen` over its characters. */
  function Width(s: seq<int>): nat {
    if s == [] then 0 else UnitLen(s[0]) + Width(s[1..])
  }

  /** Number of supplementary-plane characters in `s`. */
  function CountSupplementary(s: seq<int>): nat {
    if s == [] then 0 else (if IsSupplementary(s[0]) then 1 else 0) + CountSupplementary(s[1..])
  }

  /** The code units of one character, splitting supplementary ones into a surrogate pair. */
  function EncodeChar(c: int): seq<int> {
    if IsSupplementary(c) then
      [0xD800 + (c - 0x10000) / 0x400, 0xDC00 + (c - 0x10000) % 0x400]
    else
      [c]
  }

  /** The UTF-16 code units of a text. */
  function Encode(s: seq<int>): seq<int> {
    if s == [] then [] else EncodeChar(s[0]) + Encode(s[1..])
  }

  /** Python's `s.encode('utf-16-le')`: each code unit as two bytes, low byte first. */
  function EncodeLE(s: seq<int>): seq<int> {
    var units := Encode(s);
    seq(2 * |units|, i requires 0 <= i < 2 * |units| =>
      if i % 2 == 0 then units[i / 2] % 0x100 else units[i / 2] / 0x100)
  }

  /** Reads code units back into characters, joining a high and a low surrogate. */
  function Decode(units: seq<int>): seq<int>
    decreases |units|
  {
    if units == [] then []
    else if |units| >= 2 && 0xD800 <= units[0] <= 0xDBFF && 0xDC00 <= units[1] <= 0xDFFF then
      [0x10000 + (units[0] - 0xD800) * 0x400 + (units[1] - 0xDC00)] + Decode(units[2..])
    else
      [units[0]] + Decode(units[1..])
  }

  /** Width adds up over concatenation, so a prefix's width is part of the whole. */
  lemma {:induction false} WidthAppend(a: seq<int>, b: seq<int>)
    ensures Width(a + b) == Width(a) + Width(b)
  {
    if a == [] {
      assert a + b == b;
    } else {
      assert (a + b)[1..] == a[1..] + b;
      WidthAppend(a[1..], b);
    }
  }

  /** Each supplementary character adds exactly one unit beyond the character count. */
  lemma {:induction false} WidthCountsSupplementary(s: seq<int>)
    ensures Width(s) == |s| + CountSupplementary(s)
  {
    if s != [] {
      WidthCountsSupplementary(s[1..]);
    }
  }

  /** Width lies between one and two units per character. */
  lemma {:induction false} WidthBounds(s: seq<int>)
    ensures |s| <= Width(s) <= 2 * |s|
  {
    if s != [] {
      WidthBounds(s[1..]);
    }
  }

  /** Width equals the character count exactly when every character is in the BMP. */
  lemma {:induction false} WidthEqualsLengthIffBmp(s: seq<int>)
    ensures Width(s) == |s| <==> forall i :: 0 <= i < |s| ==> !IsSupplementary(s[i])
  {
    if s != [] {
      WidthEqualsLengthIffBmp(s[1..]);
      WidthBounds(s[1..]);
      if forall i :: 0 <= i < |s[1..]| ==> !IsSupplementary(s[1..][i]) {
        if !IsSupplementary(s[0]) {
          forall i | 0 <= i < |s| ensures !IsSupplementary(s[i]) {
            if i > 0 {
              assert s[i] == s[1..][i - 1];
            }
          }
        }
      } else {
        var i :| 0 <= i < |s[1..]| && IsSupplementary(s[1..][i]);
        assert s[i + 1] == s[1..][i];
      }
    }
  }

  /** A longer prefix is at least as wide. */
  lemma PrefixWidthMonotone(s: seq<int>, i: nat, j: nat)
    requires i <= j <= |s|
    ensures Width(s[..i]) <= Width(s[..j])
  {
    assert s[..j] == s[..i] + s[i..j];
    WidthAppend(s[..i], s[i..j]);
  }

  /** Encoding distributes over concatenation. */
  lemma {:induction false} EncodeAppend(a: seq<int>, b: seq<int>)
    ensures Encode(a + b) == Encode(a) + Encode(b)
  {
    if a == [] {
      assert a + b == b;
    } else {
      assert (a + b)[1..] == a[1..] + b;
      EncodeAppend(a[1..], b);
    }
  }

  /** The number of code units the encoder writes is `Width`. */
  lemma {:induction false} EncodeLength(s: seq<int>)
    ensures |Encode(s)| == Width(s)
  {
    if s != [] {
      EncodeLength(s[1..]);
    }
  }

  /** Half the byte length of the UTF-16-LE encoding is the width, as the enhancer computes it. */
  lemma HalfByteLengthIsWidth(s: seq<int>)
    ensures |EncodeLE(s)| / 2 == Width(s)
  {
    EncodeLength(s);
  }

  /** Every code unit the encoder writes for scalar text fits in 16 bits. */
  lemma {:induction false} EncodeUnitsFit(s: seq<int>)
    requires IsScalarText(s)
    ensures forall i :: 0 <= i < |Encode(s)| ==> 0 <= Encode(s)[i] < 0x10000
  {
    if s != [] {
      EncodeUnitsFit(s[1..]);
      var e0, rest := EncodeChar(s[0]), Encode(s[1..]);
      assert Encode(s) == e0 + rest;
      forall i | 0 <= i < |Encode(s)| ensures 0 <= Encode(s)[i] < 0x10000 {
        if i >= |e0| {
          assert Encode(s)[i] == rest[i - |e0|];
        }
      }
    }
  }

  /** Decoding the encoding of scalar text gives the text back. */
  lemma {:induction false} DecodeEncode(s: seq<int>)
    requires IsScalarText(s)
    ensures Decode(Encode(s)) == s
  {
    if s != [] {
      var c := s[0];
      var rest := Encode(s[1..]);
      assert Encode(s) == EncodeChar(c) + rest;
      if IsSupplementary(c) {
        var u := EncodeChar(c) + rest;
        assert u[2..] == rest;
        assert 0x10000 + (u[0] - 0xD800) * 0x400 + (u[1] - 0xDC00) == c;
      } else {
        var u := EncodeChar(c) + rest;
        assert u[1..] == rest;
      }
      DecodeEncode(s[1..]);
      assert s == [c] + s[1..];
    }
  }
}

=== FILE: wrappers.dfy ===
/** Optional values, used for Python's `None` and for "no edit happens". */
module Wrappers {

  datatype Option<+T> = None | Some(value: T) {

    /** Returns the value held in Some, or `default` for None. */
    function GetOr(default: T): T {
      match this
      case Some(v) => v
      case None => default
    }
  }
}
